=== FILE: README.md ===
# ImageEngine Gatsby plugin — a Dafny model

This project models the core of `@imageengine/gatsby-plugin-imageengine`, a
Gatsby plugin. For every image node a content source creates (local files,
Contentful, Sanity, Storyblok), the plugin creates a derived
`ImageEngineAsset` node. At query time it answers for that node with ImageEngine
CDN URLs. It runs in two phases:

- **Node creation.** `on_create_node` selects the configured sources whose
  checker accepts the node, and runs their transformers in order. A
  platform transformer turns the node's URL into a *tokenized URL*: the first
  occurrence of the platform's host prefix becomes the sentinel
  `##::__IE__::##`. For local files the URL is instead the sentinel followed by
  `static/<digest>/<relativePath>`. `node_create` then builds the derived
  node, and two host actions store it and link it under its parent.
- **Query-time resolution.** The `url`, `gatsbyImageData` and
  `responsive_details` fields merge the stored directives with the request
  arguments. They then resolve the address: a local static path for a file
  outside production, otherwise the tokenized URL with its sentinel replaced by
  the distribution address. Finally they hand everything to the URL builder or
  to the responsive-image generator.

Modules follow the source files:

| module | file |
|---|---|
| `Wrappers` | `Option` and `Result` |
| `Js` | the JavaScript values the plugin reads: truthiness, `a \|\| b`, conversion to string |
| `JsStrings` | `String.prototype.replace` with a string pattern (first occurrence only, `$` substitution patterns), `indexOf`, `split` |
| `Types` | nodes, options, the derived node, host actions, errors |
| `PathHelpers` | `helpers/path_helpers.ts` |
| `NodesHelpers` | `helpers/nodes_helpers.ts` and the option fallbacks every platform shares |
| `FilePlatform`, `ContentfulPlatform`, `SanityioPlatform`, `StoryblokPlatform` | `platforms/*.ts` |
| `DefaultPlatforms` | `default_platforms.ts` |
| `Plugin` | `on_create_node` and `extract_transforms` in `index.ts` |
| `Resolvers` | `resolvers.ts` |
| `EndToEnd` | properties that connect node creation with resolution |

Thrown exceptions become `Err` values of `Types.Error`. For the plugin's own
`throw` statements, `Types.Message` gives the exact text thrown; a `TypeError`
stands for an error the JavaScript runtime raises, and its text is the
model's own wording. Host actions (`createNode`, `createParentChildLink`)
are returned as a list of `Effect`s. User-supplied checkers and transformers
are tags, and a `Custom` record of functions says what they do: a checker
answers or throws, and a transform issues host actions and may throw after
some of them. The URL
builder, the responsive-image generator and the set of directive names the
builder knows are parameters. So are `NODE_ENV == "production"` and the
working directory.

Some behaviours of the code are easy to misread; the model keeps them as
written:

- `is_image` (src/platforms/file.ts:39-51) compares the text before the first
  `/` with `image`, so the bare string `image` is accepted too
  (`FilePlatform.IsImageIff`).
- `replace` with a string pattern (src/platforms/contentful.ts:22) keeps a URL
  without the host prefix unchanged, so its tokenized URL holds no sentinel
  and resolution bypasses the CDN (`EndToEnd.PrefixAbsentBypassesCdn`).
- `node_create` stores the configured address under `distribution_url`
  (src/helpers/nodes_helpers.ts:15), but resolution reads `ie_distribution`
  (src/resolvers.ts:135), a member node creation never writes. The
  stored node therefore carries `ie_distribution`, `width` and `height`
  separately, as `undefined` for a node as created (`Types.FromCreated`).
  `Resolvers.StoredAddressUnused` shows the consequence: without a per-request
  address, the sentinel is replaced by the text `undefined`, whatever address
  was configured.
- `Object.assign(source.directives, args)` (src/resolvers.ts:107) writes the
  request arguments into the stored directives object, so they persist into
  later requests (`Resolvers.QueryArgsPersist`). That object is not the node's
  own: a transformer stores the per-source or global `directives` option
  itself (src/platforms/file.ts:18, src/helpers/nodes_helpers.ts:16), so the
  write reaches the configuration record and every derived node built from
  it. The model follows the write on the node being resolved only.
  `Object.assign(args, ...)` (src/resolvers.ts:143) likewise writes the
  merged directives into the request arguments. The functions that merge
  return the updated node and arguments.
- A transform that throws does not undo the host actions it, or the
  transforms before it, already issued (src/index.ts:21-24,
  src/helpers/nodes_helpers.ts:29-30); `Plugin.OnCreateNode` returns those
  actions along with the error.

## Model

| member | source | states |
|---|---|---|
| `Plugin.MaybeDefaultChecker` | src/index.ts:61-67 | a checker is found exactly when the key is a registry name, and it is that platform's checker |
| `Plugin.MaybeDefaultTransform` | src/index.ts:69-75 | a transformer is found exactly when the key is a registry name, and it is that platform's transformer |
| `Plugin.ResolveSource` | src/index.ts:32-43 | a bare name takes the registry pair and options `{source: name}`; an options record takes its own checker/transform when given, else the registry's for its `source`, and is itself the options |
| `Plugin.StepOf` | src/index.ts:45-57 | a missing checker throws the missing-checker error whatever the node; a checker that throws aborts with its error; a rejecting checker skips the source even without a transformer; an accepting checker without a transformer throws the missing-transformer error; otherwise the transformer is kept with the source's options |
| `Plugin.ExtractTransforms` | src/index.ts:29-59 | the selection succeeds exactly when no source throws; it is then the kept entries in configuration order (a back-to-front reference definition); on error it is the error of the first source that throws |
| `Plugin.KeptCons` | src/index.ts:31-58 | the reference selection can be counted from the front, matching the left fold |
| `Plugin.ExtractSucceeds` | src/index.ts:31-58 | the fold with any accumulator succeeds exactly when no source throws |
| `Plugin.ExtractValue` | src/index.ts:31-58 | on success the fold appends exactly the kept entries to its accumulator |
| `Plugin.ExtractFails` | src/index.ts:31-58 | a failing fold throws the error of some first-failing source |
| `Plugin.UnknownNameAlwaysFails` | src/index.ts:53-55 | a bare name outside the registry throws `Unable to find checker function for <name>` for every node |
| `Plugin.ErrorStopsLaterSources` | src/index.ts:31-58 | once a prefix of the sources throws, appending more sources changes nothing |
| `Plugin.AllRejectedNothingSelected` | src/index.ts:45-52 | when every checker rejects the node, the selection is empty and nothing is thrown |
| `Plugin.RunAllErrorPersists` | src/index.ts:21-24 | once a transform throws, running more transforms after it issues no further action and keeps that error |
| `Plugin.RunAllExtends` | src/index.ts:21-24 | the actions of a longer run start with those of any prefix of it: nothing issued is taken back |
| `Plugin.OnCreateNode` | src/index.ts:19-27 | the selected transforms run in order on the same node, which is returned unchanged; the host actions of every transform that ran come back, also when one throws, and its error is the result; a failed selection issues none |
| `DefaultPlatforms.FlattenLength` | src/default_platforms.ts:15-18 | the flattened node-type list is as long as all node-type lists together |
| `DefaultPlatforms.FlattenMembership` | src/default_platforms.ts:15-18 | a node type is in the flattened list exactly when some table entry lists it |
| `DefaultPlatforms.ChildOfs` | src/default_platforms.ts:8-18 | `child_ofs` is ContentfulAsset, SanityImageAsset, File, StaticImage, StoryblokEntry, and its length is the sum of the node-type lists |
| `DefaultPlatforms.RegistryOfKeys` | src/default_platforms.ts:20-23 | the registry built from a table has exactly the table's platform names as keys |
| `DefaultPlatforms.RegistryOfLookup` | src/default_platforms.ts:20-23 | with distinct names, every name maps to its own entry's platform |
| `DefaultPlatforms.Registry` | src/default_platforms.ts:8-23 | the registry has exactly the keys contentful, sanityio, file, storyblok, each mapped to its platform |
| `DefaultPlatforms.NodeTypesAreNotKeys` | src/default_platforms.ts:8-23 | no node type in `child_ofs` is a registry key, so a source named after a node type has no default checker |
| `DefaultPlatforms.CheckerAccepts` | src/platforms/file.ts:10-14 | each default checker accepts exactly nodes of its own type: File also needs an image media type, Storyblok an `assets` member (the Contentful, Sanity and Storyblok checkers are src/platforms/contentful.ts:11-15, src/platforms/sanityio.ts:11-15 and src/platforms/storyblok.ts:11-20) |
| `FilePlatform.IsImageIff` | src/platforms/file.ts:39-51 | a media type is an image exactly when it is a string equal to `image` or starting with `image/`; a non-string never is |
| `FilePlatform.NodeObjectUrl` | src/platforms/file.ts:54-61 | the URL is the relative path of a File node; every other node type throws the unrecognized-node error |
| `FilePlatform.Transform` | src/platforms/file.ts:16-29 | the error cases with their exact reasons, success exactly for a File node with string path and digest, tokenized URL = sentinel + static segment, base URL = relative path, per-source address and directives preferred; the created node is the one node creation builds: id `imgeng-<id>`, type `ImageEngineAsset` with its description, the parent's digest, and the File's absolute path and name as parent path and name; and the two host actions |
| `NodesHelpers.HostPrefix` | src/platforms/contentful.ts:20 | the replaced prefix is the truthy `replace_url` as a string, else the platform default |
| `ContentfulPlatform.Transform` | src/platforms/contentful.ts:9-25 | succeeds exactly for a string `file.url`; tokenized URL is that URL with the first occurrence of the prefix (default `//images.ctfassets.net/`) replaced by the sentinel; base URL is the URL, media type the content type when truthy, else the node's; per-source address and directives preferred; the created node is the one node creation builds: id `imgeng-<id>`, type `ImageEngineAsset` with its description, the parent's digest, and parent path and name only for a File parent (null otherwise); the two host actions |
| `SanityioPlatform.Transform` | src/platforms/sanityio.ts:9-24 | succeeds exactly for a string `url`; tokenized URL is the URL with the first occurrence of the prefix (default `https://cdn.sanity.io/`) replaced by the sentinel; base URL is the URL, media type `mimeType` when truthy, else the node's; per-source address and directives preferred; the created node is the one node creation builds: id `imgeng-<id>`, type `ImageEngineAsset` with its description, the parent's digest, and parent path and name only for a File parent (null otherwise); the two host actions |
| `StoryblokPlatform.Transform` | src/platforms/storyblok.ts:9-46 | falsy `assets` (also `null`, which the checker accepts) create nothing; otherwise success exactly for a string filename, with tokenized URL = filename with the first occurrence of the prefix (default `https://a.storyblok.com/`) replaced, base URL = filename, per-source address and directives preferred; the created node is the one node creation builds: id `imgeng-<id>`, type `ImageEngineAsset` with its description, the parent's digest, and parent path and name only for a File parent (null otherwise); and the two host actions |
| `NodesHelpers.DeliveryAddress` | src/platforms/file.ts:17 | the per-source delivery address when truthy, else the global one |
| `NodesHelpers.ChosenDirectives` | src/platforms/file.ts:18 | the per-source directives when given, else the global ones |
| `NodesHelpers.Tokenize` | src/platforms/contentful.ts:22 | a URL without the prefix is unchanged; otherwise the prefix's first occurrence, and only that, becomes the sentinel |
| `NodesHelpers.NodeCreate` | src/helpers/nodes_helpers.ts:5-35 | id `imgeng-<id>`, parent id, verbatim URLs, address under `distribution_url`, the constant sentinel, parent path and name only for File parents (null otherwise), media type fallback, copied digest, type `ImageEngineAsset` with description "Image Engine Asset definition", then exactly createNode and createParentChildLink |
| `NodesHelpers.DerivedIdsDistinct` | src/helpers/nodes_helpers.ts:11 | distinct parents get distinct derived ids, and a derived id never equals its parent's |
| `PathHelpers.StaticSegment` | src/helpers/path_helpers.ts:12-14 | the segment starts with `static` and is `static/<digest>/<path>` for non-empty parts |
| `PathHelpers.StaticSegmentInjective` | src/helpers/path_helpers.ts:12-14 | for slash-free digests, distinct (digest, path) pairs get distinct segments |
| `PathHelpers.StaticPathFromSegments` | src/helpers/path_helpers.ts:7-10 | the destination is `<cwd>/public`, a slash, then exactly the static segment |
| `PathHelpers.StaticPathFromSource` | src/helpers/path_helpers.ts:3-5 | a destination exists exactly when the digest is a string, and it is `<cwd>/public/` followed by the static segment of the digest and the base URL |
| `PathHelpers.StaticPathUsesDigestAndBase` | src/helpers/path_helpers.ts:3-5 | two nodes with the same digest and base URL get the same destination |
| `Resolvers.DirectivesArgs` | src/resolvers.ts:104-115 | every result key is a known directive with a truthy value, taken from the request overlaid on the stored directives; truthy request arguments win; falsy arguments drop the key; stored truthy values fill the rest; the node's stored directives become stored + arguments |
| `Resolvers.QueryArgsPersist` | src/resolvers.ts:107 | an argument of one request is still applied in a later request without arguments |
| `Resolvers.Distribution` | src/resolvers.ts:135 | the request's `ie_distribution` when truthy, else the stored one |
| `Resolvers.ReplaceUrl` | src/resolvers.ts:125-138 | a File parent outside production gets the static segment of digest and base URL; otherwise the first sentinel is replaced by the distribution address as a string |
| `Resolvers.LocalAddressIgnoresArgs` | src/resolvers.ts:131-132 | outside production the File address ignores the token, the stored address and every argument |
| `Resolvers.StoredAddressUnused` | src/resolvers.ts:134-136 | for a node as created and no request address, the sentinel becomes `undefined`, the same for every configured address |
| `Resolvers.ImageResolver` | src/resolvers.ts:118-123 | succeeds exactly when the address resolves, and builds the URL from it and the merged directives |
| `Resolvers.WithRequestedFormat` | src/resolvers.ts:26 | a truthy `format` becomes `formats = [format]`; otherwise the arguments are unchanged |
| `Resolvers.WithSingleFormat` | src/resolvers.ts:53 | `formats` is always a one-element list: `format` when truthy, else `""` |
| `Resolvers.FormatSetupsAgree` | src/resolvers.ts:26-53 | the two set-ups agree when a truthy format is requested and differ otherwise (when `formats` is not passed) |
| `Resolvers.SourceMetadata` | src/resolvers.ts:146-150 | width and height from the node, else the merged directives; the format is the slash-free text after the first slash, `undefined` without a slash; a non-string media type throws |
| `Resolvers.GatsbyImageResolver` | src/resolvers.ts:140-162 | the arguments come back overlaid with the merged directives, the node with its stored directives updated, and the generator is called with them, the resolved address and the metadata read from the merged node and directives |
| `Resolvers.StoredDirectivesFillRequest` | src/resolvers.ts:142-143 | a known stored directive the request leaves out reaches the generator with its stored value |
| `Resolvers.MergeIsStable` | src/resolvers.ts:104-115 | merging again into the node and arguments as the first merge left them gives the same directives |
| `Resolvers.UrlField` | src/resolvers.ts:19-31 | the `url` field builds from the resolved address and the directives merged with the format set-up, and the node comes back with those directives written back |
| `Resolvers.GatsbyImageField` | src/resolvers.ts:33-45 | the `gatsbyImageData` field is the generator's answer for the format set-up |
| `Resolvers.ResponsiveDetailsField` | src/resolvers.ts:47-63 | dimensions and first candidate from the generator, `src` built from the arguments as the generator call left them; it succeeds whenever the generator returns a candidate and returns the node as the generator call left it; no candidates throws |
| `Resolvers.ResponsiveDetailsSameDirectives` | src/resolvers.ts:53-56 | `src` is built with exactly the directives the generator was given, despite both write-backs |
| `Resolvers.Includes` | src/resolvers.ts:169 | array membership, substring test for a string, false for falsy, a thrown error for other values |
| `Resolvers.CandidateArgs` | src/resolvers.ts:166-177 | width and height fall back to the arguments'; `format` is passed only when requested, else null; the generator's `fit`; other arguments unchanged |
| `Resolvers.GenerateImageSource` | src/resolvers.ts:164-180 | the URL is built from those arguments; the reported format is unfiltered; missing dimensions are reported as `auto` |
| `Resolvers.RequestedFormatFilter` | src/resolvers.ts:169-176 | under the `formats` set-up of src/resolvers.ts:26, with a truthy requested format the builder receives a candidate's format exactly when it equals the requested one, else null |
| `Resolvers.SingleFormatFilter` | src/resolvers.ts:169-176 | under the `formats` set-up of src/resolvers.ts:53 with no format requested, only the empty format reaches the builder; any other becomes null |
| `EndToEnd.FileAssetLocalAddress` | src/platforms/file.ts:22 | a File asset's tokenized URL starts with the sentinel; outside production it resolves to the rest, the static segment, which also ends its copy destination |
| `EndToEnd.FileAssetProductionAddress` | src/resolvers.ts:131-136 | in production a File asset resolves to the requested address followed by the static segment |
| `EndToEnd.SentinelIsFirst` | src/platforms/contentful.ts:22 | when no `#` precedes the prefix, the sentinel written is the first in the tokenized URL |
| `EndToEnd.TokenRoundTrip` | src/resolvers.ts:136 | tokenizing then resolving with an address equals replacing the prefix by that address directly |
| `EndToEnd.CdnAssetAddress` | src/resolvers.ts:134-136 | a CDN asset created from its tokenized URL resolves to its URL with the host prefix replaced by the requested address |
| `EndToEnd.PrefixAbsentBypassesCdn` | src/platforms/sanityio.ts:22 | a URL without the prefix keeps no sentinel and resolves to itself |
| `JsStrings.ReplaceLiteral` | src/platforms/contentful.ts:22 | `replace` with a `$`-free replacement splices it in at the first match only |
| `JsStrings.ExpandLiteral` | src/resolvers.ts:136 | a replacement without `$` is inserted literally |
| `JsStrings.Split` | src/platforms/file.ts:41 | at least one part, no part holds the separator, and joining the parts gives back the string |

## Left out

- `maybe_build_static_file_dependency` (src/resolvers.ts:84-101) is not modelled. It is file-system I/O: an existence check, a fire-and-forget copy, error logging and the host's dependency tracking. Its destination, `static_path_from_source`, is modelled. Each field resolver calls it first (src/resolvers.ts:24, 38, 52). For a File parent whose digest is not a string, its `path.join` throws a TypeError before the field runs, in production too. The three lines below record that gap.
- `Resolvers.UrlField`: does not throw for a File parent whose digest is not a string, as the static-file step before it would (src/resolvers.ts:24, 87); the host always stores a string digest.
- `Resolvers.GatsbyImageField`: does not throw for a File parent whose digest is not a string, as the static-file step before it would (src/resolvers.ts:38, 87); the host always stores a string digest.
- `Resolvers.ResponsiveDetailsField`: does not throw for a File parent whose digest is not a string, as the static-file step before it would (src/resolvers.ts:52, 87); the host always stores a string digest.
- `build_IE_url`, `OBJECT_TO_DIRECTIVES_MAP` and `generateImageData` are external libraries. They are parameters (`build`, `known`, `generate`) with no assumed behaviour.
- `create_schema_customization`, the GraphQL type definitions and the `gatsby_args` descriptions only declare schema and have no behaviour. `child_ofs` is modelled.
- `process.env.NODE_ENV` and `process.cwd()` are passed in as `production` and `cwd`.
- `path.join` normalisation is not modelled: `..`, `.`, duplicate or trailing slashes, and Windows separators. `PathHelpers.Join` joins non-empty segments with one slash.
- A Storyblok `content` that fails `JSON.parse` is not modelled; the content is taken as already parsed.
- The registry's dynamic `require` is a fixed table.
- `raise_error`'s default branch (src/index.ts:83-84) is never reached from the plugin's own calls and is not modelled.
- Numbers are integers: NaN and fractional values are not modelled. Objects are one opaque `Obj` value, so `includes` on arrays compares structurally, not by reference.
- `Resolvers.GatsbyImageResolver`: the top-level spread of the arguments into the generator's argument record is not kept.
- `Resolvers.DirectivesArgs`: the stored directives object is shared with the configuration record and with every other derived node built from it; the write-back reaches only the node being resolved here. A node with no stored directives merges into a fresh record that is then dropped, so the node is returned unchanged.
- Custom transforms that change the node object in place are not modelled: the node stays the same value, and only their host actions and errors are kept.
- A `TypeError` thrown half-way through a resolver after `Object.assign` has already changed the stored directives loses that change in the model.
- Nodes without an `internal` member are not modelled; every node has a type name.
- `on_create_node` is asynchronous; a thrown error is modelled as an `Err` result rather than a rejected promise.

=== FILE: default_platforms.dfy ===
/** The fixed table of platforms: each platform name with the node types it
    handles. From it come the list of node types a derived node may be a child
    of, and the registry from platform name to checker/transformer pair. */
module DefaultPlatforms {
  import opened Wrappers
  import opened Js
  import opened Types
  import FilePlatform
  import ContentfulPlatform
  import SanityioPlatform
  import StoryblokPlatform

  datatype PlatformEntry = PlatformEntry(name: string, platform: Platform, nodeTypes: seq<string>)

  /** The `platforms` table, in its source order. */
  const Platforms: seq<PlatformEntry> := [
    PlatformEntry("contentful", Contentful, ["ContentfulAsset"]),
    PlatformEntry("sanityio", Sanityio, ["SanityImageAsset"]),
    PlatformEntry("file", FileSystem, ["File", "StaticImage"]),
    PlatformEntry("storyblok", Storyblok, ["StoryblokEntry"])
  ]

  /** The `reduce` that pushes every entry's node types, entry by entry. */
  function Flatten(table: seq<PlatformEntry>): seq<string> {
    if |table| == 0 then []
    else Flatten(table[..|table| - 1]) + table[|table| - 1].nodeTypes
  }

  function SumLengths(table: seq<PlatformEntry>): nat {
    if |table| == 0 then 0
    else SumLengths(table[..|table| - 1]) + |table[|table| - 1].nodeTypes|
  }

  /** Nothing is lost or added: the flattened list is as long as all the
      node-type lists together. */
  lemma {:induction false} FlattenLength(table: seq<PlatformEntry>)
    ensures |Flatten(table)| == SumLengths(table)
  {
    if |table| > 0 {
      FlattenLength(table[..|table| - 1]);
    }
  }

  /** A node type is in the flattened list exactly when some entry lists it. */
  lemma {:induction false} FlattenMembership(table: seq<PlatformEntry>, x: string)
    ensures x in Flatten(table) <==> exists i :: 0 <= i < |table| && x in table[i].nodeTypes
  {
    if |table| > 0 {
      var init := table[..|table| - 1];
      FlattenMembership(init, x);
      if x in Flatten(table) && x !in table[|table| - 1].nodeTypes {
        var i :| 0 <= i < |init| && x in init[i].nodeTypes;
        assert table[i] == init[i];
      }
      if exists i :: 0 <= i < |init| && x in init[i].nodeTypes {
        var i :| 0 <= i < |init| && x in init[i].nodeTypes;
        assert table[i] == init[i];
      }
    }
  }

  /** `child_ofs`: every node type of the table, in table order. */
  function ChildOfs(): (r: seq<string>)
    ensures r == ["ContentfulAsset", "SanityImageAsset", "File", "StaticImage", "StoryblokEntry"]
    ensures |r| == SumLengths(Platforms)
  {
    assert Platforms[..0] == [];
    assert Platforms[..1][..0] == [];
    assert Platforms[..2][..1] == Platforms[..1];
    assert Platforms[..3][..2] == Platforms[..2];
    assert Platforms[..4][..3] == Platforms[..3];
    assert Platforms[..4] == Platforms;
    assert Flatten(Platforms[..1]) == ["ContentfulAsset"];
    assert Flatten(Platforms[..2]) == ["ContentfulAsset", "SanityImageAsset"];
    assert Flatten(Platforms[..3]) == ["ContentfulAsset", "SanityImageAsset", "File", "StaticImage"];
    FlattenLength(Platforms);
    Flatten(Platforms)
  }

  /** The `reduce` that stores each entry's platform under its name. */
  function RegistryOf(table: seq<PlatformEntry>): map<string, Platform> {
    if |table| == 0 then map[]
    else RegistryOf(table[..|table| - 1])[table[|table| - 1].name := table[|table| - 1].platform]
  }

  /** The registry's keys are exactly the table's platform names. */
  lemma {:induction false} RegistryOfKeys(table: seq<PlatformEntry>)
    ensures RegistryOf(table).Keys == set i | 0 <= i < |table| :: table[i].name
  {
    if |table| > 0 {
      var init := table[..|table| - 1];
      RegistryOfKeys(init);
      var names := set i | 0 <= i < |table| :: table[i].name;
      var initNames := set i | 0 <= i < |init| :: init[i].name;
      assert names == initNames + {table[|table| - 1].name} by {
        forall n | n in names ensures n in initNames + {table[|table| - 1].name} {
          var i :| 0 <= i < |table| && table[i].name == n;
          if i < |init| {
            assert init[i] == table[i];
          }
        }
        forall n | n in initNames ensures n in names {
          var i :| 0 <= i < |init| && init[i].name == n;
          assert table[i] == init[i];
        }
      }
    }
  }

  /** With distinct names, each name maps to its own entry's platform. */
  lemma {:induction false} RegistryOfLookup(table: seq<PlatformEntry>, i: nat)
    requires i < |table|
    requires forall j, k :: 0 <= j < k < |table| ==> table[j].name != table[k].name
    ensures table[i].name in RegistryOf(table)
    ensures RegistryOf(table)[table[i].name] == table[i].platform
  {
    var last := |table| - 1;
    if i < last {
      var init := table[..last];
      assert init[i] == table[i];
      RegistryOfLookup(init, i);
      assert table[i].name != table[last].name;
    }
  }

  /** `default_platforms`: the registry, keyed by platform name. */
  function Registry(): (r: map<string, Platform>)
    ensures r.Keys == {"contentful", "sanityio", "file", "storyblok"}
    ensures r["contentful"] == Contentful && r["sanityio"] == Sanityio
    ensures r["file"] == FileSystem && r["storyblok"] == Storyblok
  {
    RegistryOfKeys(Platforms);
    var names := set i | 0 <= i < |Platforms| :: Platforms[i].name;
    assert names == {"contentful", "sanityio", "file", "storyblok"} by {
      assert Platforms[0].name in names && Platforms[1].name in names;
      assert Platforms[2].name in names && Platforms[3].name in names;
    }
    RegistryOfLookup(Platforms, 0);
    RegistryOfLookup(Platforms, 1);
    RegistryOfLookup(Platforms, 2);
    RegistryOfLookup(Platforms, 3);
    RegistryOf(Platforms)
  }

  /** The registry is keyed by platform names, not node types: no node type a
      derived node can hang under is a registry key. */
  lemma NodeTypesAreNotKeys()
    ensures forall x :: x in ChildOfs() ==> x !in Registry()
  {
  }

  /** The default checker of a platform. */
  predicate Check(p: Platform, node: Node) {
    match p
    case Contentful => ContentfulPlatform.Check(node)
    case Sanityio => SanityioPlatform.Check(node)
    case FileSystem => FilePlatform.Check(node)
    case Storyblok => StoryblokPlatform.Check(node)
  }

  /** The default transformer of a platform. */
  function Transform(p: Platform, node: Node, opts: SourceOptions, global: PluginOptions): Result<TransformOutcome, Error> {
    match p
    case Contentful => ContentfulPlatform.Transform(node, opts, global)
    case Sanityio => SanityioPlatform.Transform(node, opts, global)
    case FileSystem => FilePlatform.Transform(node, opts, global)
    case Storyblok => StoryblokPlatform.Transform(node, opts, global)
  }

  function OwnType(p: Platform): string {
    match p
    case Contentful => "ContentfulAsset"
    case Sanityio => "SanityImageAsset"
    case FileSystem => "File"
    case Storyblok => "StoryblokEntry"
  }

  /** Each default checker accepts exactly the nodes of its own type, the File
      checker only those with an image media type, and the Storyblok checker
      only those whose content defines `assets`. */
  lemma CheckerAccepts(p: Platform, node: Node)
    ensures Check(p, node) <==>
      && node.internal.typeName == OwnType(p)
      && (p == FileSystem ==> FilePlatform.IsImage(node.internal.mediaType))
      && (p == Storyblok ==> !node.content.AssetsAbsent?)
  {
  }
}

=== FILE: end_to_end.dfy ===
/** Properties that connect node creation with query-time resolution: what
    address a derived node resolves to, given how its platform built it. */
module EndToEnd {
  import opened Wrappers
  import opened Js
  import opened JsStrings
  import opened Types
  import opened PathHelpers
  import opened NodesHelpers
  import FilePlatform
  import Resolvers

  /** For a File asset, the sentinel leads the tokenized URL, and outside
      production the resolved address is the tokenized URL without it: the
      static location, which is also the tail of the copy destination. */
  lemma FileAssetLocalAddress(node: Node, opts: SourceOptions, global: PluginOptions, args: Resolvers.Args, cwd: string)
    requires FilePlatform.Transform(node, opts, global).Ok?
    ensures var a := FilePlatform.Transform(node, opts, global).value.created.value;
      var local := a.tokenizedUrl[|ReplacementToken|..];
      && a.tokenizedUrl[..|ReplacementToken|] == ReplacementToken
      && local == StaticSegment(node.internal.contentDigest.s, node.relativePath.s)
      && Resolvers.ReplaceUrl(FromCreated(a), args, false) == Ok(local)
      && StaticPathFromSource(cwd, FromCreated(a)).Ok?
      && var dest := StaticPathFromSource(cwd, FromCreated(a)).value;
         |dest| > |local| && dest[|dest| - |local|..] == local
  {
    var a := FilePlatform.Transform(node, opts, global).value.created.value;
    var seg := StaticSegment(node.internal.contentDigest.s, node.relativePath.s);
    assert a.tokenizedUrl == ReplacementToken + seg;
    assert a.tokenizedUrl[|ReplacementToken|..] == seg;
  }

  /** In production a File asset resolves to the requested address followed
      by the static location. */
  lemma FileAssetProductionAddress(node: Node, opts: SourceOptions, global: PluginOptions, args: Resolvers.Args, d: string)
    requires FilePlatform.Transform(node, opts, global).Ok?
    requires "ie_distribution" in args && args["ie_distribution"] == Str(d) && d != ""
    requires '$' !in d
    ensures var a := FilePlatform.Transform(node, opts, global).value.created.value;
      Resolvers.ReplaceUrl(FromCreated(a), args, true) ==
        Ok(d + StaticSegment(node.internal.contentDigest.s, node.relativePath.s))
  {
    var a := FilePlatform.Transform(node, opts, global).value.created.value;
    var seg := StaticSegment(node.internal.contentDigest.s, node.relativePath.s);
    assert a.tokenizedUrl == ReplacementToken + seg;
    assert FirstMatch(a.tokenizedUrl, ReplacementToken, 0) by {
      assert a.tokenizedUrl[0..|ReplacementToken|] == ReplacementToken;
    }
    assert a.tokenizedUrl[..0] == "";
    assert a.tokenizedUrl[|ReplacementToken|..] == seg;
    assert Resolvers.Distribution(FromCreated(a), args) == Str(d);
    ReplaceLiteralAt(a.tokenizedUrl, ReplacementToken, d, 0);
    assert a.replacementToken == ReplacementToken;
    assert ToString(Str(d)) == d;
    assert Replace(a.tokenizedUrl, ReplacementToken, d) == d + seg;
    assert Resolvers.ReplaceUrl(FromCreated(a), args, true) == Ok(Replace(a.tokenizedUrl, ReplacementToken, d));
  }

  /** Where the prefix first occurs at `i` and no `#` comes before it, the
      sentinel written there is the first one in the tokenized URL. */
  lemma SentinelIsFirst(url: string, prefix: string, i: nat)
    requires FirstMatch(url, prefix, i)
    requires '#' !in url[..i]
    ensures FirstMatch(Tokenize(url, prefix), ReplacementToken, i)
  {
    var t := Tokenize(url, prefix);
    assert t == url[..i] + ReplacementToken + url[i + |prefix|..];
    assert t[i..i + |ReplacementToken|] == ReplacementToken;
    forall j | 0 <= j < i ensures !MatchAt(t, ReplacementToken, j) {
      assert t[j] == url[..i][j];
      assert url[..i][j] != '#';
      assert ReplacementToken[0] == '#';
    }
  }

  /** Tokenizing and then resolving with address `d` is replacing the prefix
      by `d` directly: the sentinel is a faithful stand-in for the host. */
  lemma TokenRoundTrip(url: string, prefix: string, d: string, i: nat)
    requires FirstMatch(url, prefix, i)
    requires '#' !in url[..i]
    requires '$' !in d
    ensures Replace(Tokenize(url, prefix), ReplacementToken, d) == Replace(url, prefix, d)
  {
    var t := Tokenize(url, prefix);
    SentinelIsFirst(url, prefix, i);
    ReplaceLiteralAt(t, ReplacementToken, d, i);
    ReplaceLiteralAt(url, prefix, d, i);
    assert t[..i] == url[..i];
    assert t[i + |ReplacementToken|..] == url[i + |prefix|..];
  }

  /** A CDN-hosted asset (any platform but File) whose node was created from
      the tokenized URL resolves, when the request passes address `d`, to its
      URL with the host prefix replaced by `d`, in and out of production. */
  lemma CdnAssetAddress(node: Node, url: string, prefix: string, dist: Value, directives: Option<Directives>, mime: Value,
                        args: Resolvers.Args, production: bool, d: string, i: nat)
    requires node.internal.typeName != "File"
    requires FirstMatch(url, prefix, i) && '#' !in url[..i]
    requires "ie_distribution" in args && args["ie_distribution"] == Str(d) && d != "" && '$' !in d
    ensures var a := NodeCreate(node, url, Tokenize(url, prefix), dist, directives, mime).0;
      Resolvers.ReplaceUrl(FromCreated(a), args, production) == Ok(Replace(url, prefix, d))
  {
    var a := NodeCreate(node, url, Tokenize(url, prefix), dist, directives, mime).0;
    TokenRoundTrip(url, prefix, d, i);
    SentinelIsFirst(url, prefix, i);
    ReplaceLiteralAt(a.tokenizedUrl, ReplacementToken, d, i);
  }

  /** A URL without the host prefix (and without the sentinel) keeps no
      sentinel, and resolves to itself: the CDN is bypassed. */
  lemma PrefixAbsentBypassesCdn(a: AssetNode, url: string, prefix: string, args: Resolvers.Args, production: bool)
    requires a.parentType != "File"
    requires a.replacementToken == ReplacementToken
    requires a.tokenizedUrl == Tokenize(url, prefix)
    requires forall j :: !MatchAt(url, prefix, j)
    requires forall j :: !MatchAt(url, ReplacementToken, j)
    ensures a.tokenizedUrl == url
    ensures Resolvers.ReplaceUrl(FromCreated(a), args, production) == Ok(url)
  {
  }
}

=== FILE: js_strings.dfy ===
/** The string operations of the JavaScript standard library that the plugin
    uses: `indexOf`, `replace` with a string pattern, and `split` on a single
    character. */
module JsStrings {
  import opened Wrappers

  /** `p` occurs in `s` starting at index `i`. */
  predicate MatchAt(s: string, p: string, i: int) {
    0 <= i && i + |p| <= |s| && s[i..i + |p|] == p
  }

  /** `s.indexOf(p, k)`: the first index at or after `k` where `p` occurs. */
  function IndexFrom(s: string, p: string, k: nat): (r: Option<nat>)
    requires k <= |s|
    ensures r.Some? ==> k <= r.value && MatchAt(s, p, r.value)
    ensures r.Some? ==> forall j :: k <= j < r.value ==> !MatchAt(s, p, j)
    ensures r.None? ==> forall j :: k <= j ==> !MatchAt(s, p, j)
    decreases |s| - k
  {
    if MatchAt(s, p, k) then Some(k)
    else if k == |s| then None
    else IndexFrom(s, p, k + 1)
  }

  /** `s.indexOf(p)`, with `None` for the JavaScript result -1. */
  function IndexOf(s: string, p: string): Option<nat> {
    IndexFrom(s, p, 0)
  }

  /** `i` is the first occurrence of `p` in `s`. */
  predicate FirstMatch(s: string, p: string, i: nat) {
    MatchAt(s, p, i) && forall j :: 0 <= j < i ==> !MatchAt(s, p, j)
  }

  /** The four replacement patterns that GetSubstitution (section 22.1.3.19.1 of
      ECMAScript 2023) interprets when the search value is a string. */
  predicate IsPatternChar(c: char) {
    c == '$' || c == '&' || c == '`' || c == '\''
  }

  /** GetSubstitution for a string search value: `$$` is a dollar sign, `$&`
      the matched text, `` $` `` the text before the match and `$'` the text
      after it. With no capture groups, `$1` and `$<` stay literal. */
  function Expand(rep: string, matched: string, before: string, after: string): string
    decreases |rep|
  {
    if |rep| == 0 then ""
    else if rep[0] == '$' && |rep| >= 2 && IsPatternChar(rep[1]) then
      var piece :=
        if rep[1] == '$' then "$"
        else if rep[1] == '&' then matched
        else if rep[1] == '`' then before
        else after;
      piece + Expand(rep[2..], matched, before, after)
    else
      [rep[0]] + Expand(rep[1..], matched, before, after)
  }

  /** A replacement text without a dollar sign is inserted literally. */
  lemma {:induction false} ExpandLiteral(rep: string, matched: string, before: string, after: string)
    requires '$' !in rep
    ensures Expand(rep, matched, before, after) == rep
    decreases |rep|
  {
    if |rep| > 0 {
      assert rep[0] != '$';
      assert '$' !in rep[1..] by {
        forall k | 0 <= k < |rep[1..]| ensures rep[1..][k] != '$' {
          assert rep[1..][k] == rep[k + 1];
        }
      }
      ExpandLiteral(rep[1..], matched, before, after);
      assert rep == [rep[0]] + rep[1..];
    }
  }

  /** `s.replace(p, rep)` with a string `p`: only the first occurrence is
      replaced, and the string is returned unchanged when `p` does not occur. */
  function Replace(s: string, p: string, rep: string): string {
    match IndexOf(s, p)
    case None => s
    case Some(i) => s[..i] + Expand(rep, p, s[..i], s[i + |p|..]) + s[i + |p|..]
  }

  /** When `p` first occurs at `i`, the text around that occurrence is kept and
      only the occurrence itself is substituted. */
  lemma ReplaceAt(s: string, p: string, rep: string, i: nat)
    requires FirstMatch(s, p, i)
    ensures Replace(s, p, rep) == s[..i] + Expand(rep, p, s[..i], s[i + |p|..]) + s[i + |p|..]
  {
    assert IndexOf(s, p) == Some(i);
  }

  /** With a dollar-free replacement text, `replace` is a literal splice. */
  lemma ReplaceLiteralAt(s: string, p: string, rep: string, i: nat)
    requires FirstMatch(s, p, i)
    requires '$' !in rep
    ensures Replace(s, p, rep) == s[..i] + rep + s[i + |p|..]
  {
    ReplaceAt(s, p, rep, i);
    ExpandLiteral(rep, p, s[..i], s[i + |p|..]);
  }

  /** The literal splice, for whichever index is the first match. */
  lemma ReplaceLiteral(s: string, p: string, rep: string)
    requires '$' !in rep
    ensures forall i: nat :: FirstMatch(s, p, i) ==> Replace(s, p, rep) == s[..i] + rep + s[i + |p|..]
  {
    forall i: nat | FirstMatch(s, p, i)
      ensures Replace(s, p, rep) == s[..i] + rep + s[i + |p|..]
    {
      ReplaceLiteralAt(s, p, rep, i);
    }
  }

  /** `parts.join(c)`. */
  function JoinWith(parts: seq<string>, c: char): string {
    if |parts| == 0 then ""
    else if |parts| == 1 then parts[0]
    else parts[0] + [c] + JoinWith(parts[1..], c)
  }

  /** `s.split(c)`: the maximal pieces of `s` free of `c`. Joining them back
      with `c` gives `s` again, so the pieces are determined by `s`. */
  function Split(s: string, c: char): (parts: seq<string>)
    ensures |parts| >= 1
    ensures forall k :: 0 <= k < |parts| ==> c !in parts[k]
    ensures JoinWith(parts, c) == s
    decreases |s|
  {
    if |s| == 0 then [""]
    else
      var rest := Split(s[1..], c);
      if s[0] == c then
        assert ([""] + rest)[1..] == rest;
        assert s == [c] + s[1..];
        [""] + rest
      else
        var head := [s[0]] + rest[0];
        assert c !in head;
        assert ([head] + rest[1..])[1..] == rest[1..];
        assert s == [s[0]] + s[1..];
        [head] + rest[1..]
  }

  /** `s.split(c)[0]` is the text before the first `c`, or all of `s`. */
  lemma SplitFirst(s: string, c: char)
    ensures var f := Split(s, c)[0];
      && f == s[..|f|]
      && c !in f
      && (|Split(s, c)| == 1 <==> |f| == |s|)
      && (|f| < |s| ==> s[|f|] == c)
  {
    var parts := Split(s, c);
    if |parts| > 1 {
      assert s == parts[0] + [c] + JoinWith(parts[1..], c);
      assert s[|parts[0]|] == c;
    }
  }

  /** `s.split(c)[1]`, when present, is the text between the first and second
      occurrence of `c` (or to the end of `s`). */
  lemma SplitSecond(s: string, c: char)
    requires |Split(s, c)| > 1
    ensures var f := Split(s, c)[0]; var g := Split(s, c)[1];
      && |f| + 1 + |g| <= |s|
      && s[..|f| + 1 + |g|] == f + [c] + g
      && c !in g
      && (|f| + 1 + |g| < |s| ==> s[|f| + 1 + |g|] == c)
  {
    var parts := Split(s, c);
    var tail := parts[1..];
    assert s == parts[0] + [c] + JoinWith(tail, c);
    assert tail[0] == parts[1];
    if |tail| > 1 {
      assert JoinWith(tail, c) == tail[0] + [c] + JoinWith(tail[1..], c);
      assert s == (parts[0] + [c] + parts[1]) + ([c] + JoinWith(tail[1..], c));
    } else {
      assert s == parts[0] + [c] + parts[1];
    }
  }
}

=== FILE: js_values.dfy ===
/** The JavaScript values the plugin reads from untyped (`any`) records, with
    the two language rules it leans on: truthiness (used by `||` and `if`) and
    conversion to a string (used when a value is spliced into a URL). */
module Js {
  import opened JsStrings

  /** A JavaScript value. `Num` is restricted to integers (no fractions, NaN or
      infinities); `Obj` stands for any object that is not an array. */
  datatype Value =
    | Undefined
    | Null
    | Bool(b: bool)
    | Num(n: int)
    | Str(s: string)
    | Arr(items: seq<Value>)
    | Obj

  /** ECMAScript ToBoolean: `undefined`, `null`, `false`, `0` and `""` are falsy. */
  predicate Truthy(v: Value) {
    match v
    case Undefined => false
    case Null => false
    case Bool(b) => b
    case Num(n) => n != 0
    case Str(s) => s != ""
    case Arr(_) => true
    case Obj => true
  }

  /** The value of `a || b`: `a` when it is truthy, otherwise `b`. */
  function Or(a: Value, b: Value): Value {
    if Truthy(a) then a else b
  }

  /** Reading `obj[key]` from a record: an absent key reads as `undefined`. */
  function Get(m: map<string, Value>, key: string): Value {
    if key in m then m[key] else Undefined
  }

  function DigitChar(d: nat): char
    requires d < 10
  {
    "0123456789"[d]
  }

  /** Decimal text of a natural number, most significant digit first. */
  function NatToString(n: nat): (r: string)
    ensures |r| >= 1
    ensures forall i :: 0 <= i < |r| ==> '0' <= r[i] <= '9'
    ensures n < 10 <==> |r| == 1
    decreases n
  {
    if n < 10 then [DigitChar(n)] else NatToString(n / 10) + [DigitChar(n % 10)]
  }

  /** ECMAScript Number::toString restricted to integers. */
  function IntToString(n: int): string {
    if n < 0 then "-" + NatToString(-n) else NatToString(n)
  }

  /** ECMAScript ToString. Arrays convert through `Array.prototype.join(",")`,
      which writes `null` and `undefined` elements as empty text. */
  function ToString(v: Value): (r: string)
    ensures v.Str? ==> r == v.s
    ensures !Truthy(v) && !v.Str? && !v.Num? && !v.Bool? ==> r == (if v.Null? then "null" else "undefined")
    decreases v, 0
  {
    match v
    case Undefined => "undefined"
    case Null => "null"
    case Bool(b) => if b then "true" else "false"
    case Num(n) => IntToString(n)
    case Str(s) => s
    case Arr(items) => JoinWith(seq(|items|, i requires 0 <= i < |items| => ElementString(items[i])), ',')
    case Obj => "[object Object]"
  }

  /** How `Array.prototype.join` writes one element. */
  function ElementString(v: Value): string
    decreases v, 1
  {
    if v.Undefined? || v.Null? then "" else ToString(v)
  }
}

=== FILE: nodes_helpers.dfy ===
/** Construction of the derived ImageEngineAsset node, the sentinel that marks
    where the distribution address goes, and the option fallbacks every
    platform applies. */
module NodesHelpers {
  import opened Wrappers
  import opened Js
  import opened JsStrings
  import opened Types

  /** The sentinel written in place of the host prefix of an image URL. */
  const ReplacementToken: string := "##::__IE__::##"

  /** `options?.ie_delivery_address || global_options?.ie_delivery_address`. */
  function DeliveryAddress(opts: SourceOptions, global: PluginOptions): (r: Value)
    ensures Truthy(opts.ieDeliveryAddress) ==> r == opts.ieDeliveryAddress
    ensures !Truthy(opts.ieDeliveryAddress) ==> r == global.ieDeliveryAddress
  {
    Or(opts.ieDeliveryAddress, global.ieDeliveryAddress)
  }

  /** `options?.directives || global_options?.directives`. */
  function ChosenDirectives(opts: SourceOptions, global: PluginOptions): (r: Option<Directives>)
    ensures opts.directives.Some? ==> r == opts.directives
    ensures opts.directives.None? ==> r == global.directives
  {
    if opts.directives.Some? then opts.directives else global.directives
  }

  /** `options?.replace_url || default_replace_url`: the host prefix a platform
      replaces, as the string `replace` searches for. */
  function HostPrefix(opts: SourceOptions, default: string): (r: string)
    ensures Truthy(opts.replaceUrl) ==> r == ToString(opts.replaceUrl)
    ensures !Truthy(opts.replaceUrl) ==> r == default
  {
    ToString(Or(opts.replaceUrl, Str(default)))
  }

  /** `url.replace(prefix, REPLACEMENT_TOKEN)`: the first occurrence of the
      prefix becomes the sentinel; a URL without the prefix is kept as it is. */
  function Tokenize(url: string, prefix: string): (r: string)
    ensures (forall j :: !MatchAt(url, prefix, j)) ==> r == url
    ensures forall i: nat :: FirstMatch(url, prefix, i) ==>
      r == url[..i] + ReplacementToken + url[i + |prefix|..]
  {
    assert '$' !in ReplacementToken;
    ReplaceLiteral(url, prefix, ReplacementToken);
    Replace(url, prefix, ReplacementToken)
  }

  /** `node_create`: the derived node for `node`, with the two host actions
      that store it and link it under its parent. */
  function NodeCreate(node: Node, baseUrl: string, tokenizedUrl: string, distributionUrl: Value,
                      directives: Option<Directives>, mimeType: Value): (r: (AssetNode, seq<Effect>))
    ensures var a := r.0;
      && a.id == "imgeng-" + node.id
      && a.parent == node.id
      && a.baseUrl == baseUrl
      && a.tokenizedUrl == tokenizedUrl
      && a.distributionUrl == distributionUrl
      && a.directives == directives
      && a.replacementToken == ReplacementToken
      && a.parentType == node.internal.typeName
      && a.internal.typeName == "ImageEngineAsset"
      && a.internal.description == "Image Engine Asset definition"
      && a.internal.contentDigest == node.internal.contentDigest
    ensures node.internal.typeName == "File" ==>
      r.0.parentPath == node.absolutePath && r.0.parentFilename == node.name
    ensures node.internal.typeName != "File" ==> r.0.parentPath == Null && r.0.parentFilename == Null
    ensures Truthy(mimeType) ==> r.0.internal.mediaType == mimeType
    ensures !Truthy(mimeType) ==> r.0.internal.mediaType == node.internal.mediaType
    ensures r.1 == [CreateNode(r.0), CreateParentChildLink(node, r.0)]
  {
    var isFile := node.internal.typeName == "File";
    var asset := AssetNode(
      id := "imgeng-" + node.id,
      parent := node.id,
      baseUrl := baseUrl,
      tokenizedUrl := tokenizedUrl,
      distributionUrl := distributionUrl,
      directives := directives,
      replacementToken := ReplacementToken,
      parentType := node.internal.typeName,
      parentPath := if isFile then node.absolutePath else Null,
      parentFilename := if isFile then node.name else Null,
      internal := AssetInternal(
        mediaType := Or(mimeType, node.internal.mediaType),
        typeName := "ImageEngineAsset",
        contentDigest := node.internal.contentDigest,
        description := "Image Engine Asset definition"));
    (asset, [CreateNode(asset), CreateParentChildLink(node, asset)])
  }

  /** Derived identifiers never collide: distinct parents get distinct derived
      nodes, and a derived node never takes its parent's identifier. */
  lemma {:induction false} DerivedIdsDistinct(n1: Node, n2: Node, b1: string, t1: string, d1: Value, s1: Option<Directives>, m1: Value,
                                              b2: string, t2: string, d2: Value, s2: Option<Directives>, m2: Value)
    ensures n1.id != n2.id ==> NodeCreate(n1, b1, t1, d1, s1, m1).0.id != NodeCreate(n2, b2, t2, d2, s2, m2).0.id
    ensures NodeCreate(n1, b1, t1, d1, s1, m1).0.id != n1.id
  {
    var prefix := "imgeng-";
    var i1 := NodeCreate(n1, b1, t1, d1, s1, m1).0.id;
    var i2 := NodeCreate(n2, b2, t2, d2, s2, m2).0.id;
    assert i1[|prefix|..] == n1.id;
    assert i2[|prefix|..] == n2.id;
    assert |i1| == |n1.id| + |prefix|;
  }
}

=== FILE: path_helpers.dfy ===
/** Paths of the local copies of File assets: `static/<digest>/<relativePath>`,
    under `<cwd>/public` on disk. */
module PathHelpers {
  import opened Wrappers
  import opened Js
  import opened Types

  /** `path.join(a, b)` on well-formed segments: empty segments are skipped and
      the others are joined with a slash. */
  function Join(a: string, b: string): string {
    if a == "" then b else if b == "" then a else a + "/" + b
  }

  /** `static_segment`: the digest-addressed location of a File asset. */
  function StaticSegment(digest: string, relativePath: string): (r: string)
    ensures |r| >= 6 && r[..6] == "static"
    ensures digest != "" && relativePath != "" ==> r == "static/" + digest + "/" + relativePath
  {
    Join(Join("static", digest), relativePath)
  }

  /** In `head + "/" + tail` with a slash-free head, the first slash ends the head. */
  lemma FirstSlash(head: string, tail: string)
    requires '/' !in head
    ensures var s := head + "/" + tail;
      s[|head|] == '/' && forall j :: 0 <= j < |head| ==> s[j] != '/'
  {
    var s := head + "/" + tail;
    forall j | 0 <= j < |head| ensures s[j] != '/' {
      assert s[j] == head[j];
    }
  }

  /** A slash-free head is recovered from `head + "/" + tail`. */
  lemma SlashSplit(d1: string, p1: string, d2: string, p2: string)
    requires '/' !in d1 && '/' !in d2
    requires d1 + "/" + p1 == d2 + "/" + p2
    ensures d1 == d2 && p1 == p2
  {
    var s := d1 + "/" + p1;
    FirstSlash(d1, p1);
    FirstSlash(d2, p2);
    assert |d1| == |d2|;
    assert d1 == s[..|d1|] && d2 == s[..|d2|];
    assert p1 == s[|d1| + 1..] && p2 == s[|d2| + 1..];
  }

  /** Distinct (digest, relative path) pairs get distinct locations, as long as
      the digest holds no slash: the location can be split back. */
  lemma StaticSegmentInjective(d1: string, p1: string, d2: string, p2: string)
    requires d1 != "" && d2 != "" && p1 != "" && p2 != ""
    requires '/' !in d1 && '/' !in d2
    requires StaticSegment(d1, p1) == StaticSegment(d2, p2)
    ensures d1 == d2 && p1 == p2
  {
    var s1 := d1 + "/" + p1;
    var s2 := d2 + "/" + p2;
    assert StaticSegment(d1, p1) == "static/" + s1;
    assert StaticSegment(d2, p2) == "static/" + s2;
    assert s1 == ("static/" + s1)[7..];
    assert s2 == ("static/" + s2)[7..];
    SlashSplit(d1, p1, d2, p2);
  }

  /** `static_path_from_segments`: the copy destination on disk. It is
      `<cwd>/public` followed by the static segment. */
  function StaticPathFromSegments(cwd: string, digest: string, relativePath: string): (r: string)
    ensures var seg := StaticSegment(digest, relativePath);
      && |r| > |seg|
      && r[|r| - |seg|..] == seg
      && r[|r| - |seg| - 1] == '/'
      && r[..|r| - |seg| - 1] == Join(cwd, "public")
  {
    Join(Join(cwd, "public"), StaticSegment(digest, relativePath))
  }

  /** `static_path_from_source`: the copy destination of a derived node, from
      its content digest and base URL. A digest that is not a string makes
      `path.join` throw. */
  function StaticPathFromSource(cwd: string, source: StoredAsset): (r: Result<string, Error>)
    ensures source.node.internal.contentDigest.Str? <==> r.Ok?
    ensures r.Ok? ==>
      r.value == Join(cwd, "public") + "/" + StaticSegment(source.node.internal.contentDigest.s, source.node.baseUrl)
  {
    var digest := source.node.internal.contentDigest;
    if digest.Str? then Ok(StaticPathFromSegments(cwd, digest.s, source.node.baseUrl))
    else Err(TypeError("path.join: digest is not a string"))
  }

  /** The copy destination depends on nothing but the digest and the base URL. */
  lemma StaticPathUsesDigestAndBase(cwd: string, a: StoredAsset, b: StoredAsset)
    requires a.node.internal.contentDigest == b.node.internal.contentDigest
    requires a.node.baseUrl == b.node.baseUrl
    ensures StaticPathFromSource(cwd, a) == StaticPathFromSource(cwd, b)
  {
  }
}

=== FILE: platform_contentful.dfy ===
/** The Contentful platform: assets whose `file.url` points at the Contentful
    image host. */
module ContentfulPlatform {
  import opened Wrappers
  import opened Js
  import opened JsStrings
  import opened Types
  import opened NodesHelpers

  const DefaultReplaceUrl: string := "//images.ctfassets.net/"

  /** The Contentful checker: the node's type is `ContentfulAsset`. */
  predicate Check(node: Node) {
    node.internal.typeName == "ContentfulAsset"
  }

  /** The Contentful transformer. Reading `url` from a missing `file`, or
      calling `replace` on a `url` that is not a string, throws. */
  function Transform(node: Node, opts: SourceOptions, global: PluginOptions): (r: Result<TransformOutcome, Error>)
    ensures r.Ok? <==> node.file.Some? && node.file.value.url.Str?
    ensures r.Err? ==> r.error.TypeError?
    ensures r.Ok? ==> r.value.created.Some? && var a := r.value.created.value; var url := node.file.value.url.s;
      && a.baseUrl == url
      && a.tokenizedUrl == Tokenize(url, HostPrefix(opts, DefaultReplaceUrl))
      && (!Truthy(opts.replaceUrl) ==> a.tokenizedUrl == Tokenize(url, DefaultReplaceUrl))
      && a.distributionUrl == DeliveryAddress(opts, global)
      && a.directives == ChosenDirectives(opts, global)
      && (Truthy(node.file.value.contentType) ==> a.internal.mediaType == node.file.value.contentType)
      && (!Truthy(node.file.value.contentType) ==> a.internal.mediaType == node.internal.mediaType)
      && a.replacementToken == ReplacementToken
      && a.parentType == node.internal.typeName
      && a.parent == node.id
      && a.id == "imgeng-" + node.id
      && a.internal.typeName == "ImageEngineAsset"
      && a.internal.description == "Image Engine Asset definition"
      && a.internal.contentDigest == node.internal.contentDigest
      && (node.internal.typeName == "File" ==> a.parentPath == node.absolutePath && a.parentFilename == node.name)
      && (node.internal.typeName != "File" ==> a.parentPath == Null && a.parentFilename == Null)
      && r.value.effects == [CreateNode(a), CreateParentChildLink(node, a)]
  {
    var dist := DeliveryAddress(opts, global);
    var directives := ChosenDirectives(opts, global);
    var prefix := HostPrefix(opts, DefaultReplaceUrl);
    if node.file.None? then
      Err(TypeError("cannot destructure node.file"))
    else if !node.file.value.url.Str? then
      Err(TypeError("url.replace is not a function"))
    else
      var url := node.file.value.url.s;
      var created := NodeCreate(node, url, Tokenize(url, prefix), dist, directives, node.file.value.contentType);
      Ok(TransformOutcome(Some(created.0), created.1))
  }
}

=== FILE: platform_file.dfy ===
/** The File platform: image files of the host's filesystem source. The URL is
    the sentinel followed by the local static location, so that outside
    production the resolver can serve the copied file instead. */
module FilePlatform {
  import opened Wrappers
  import opened Js
  import opened JsStrings
  import opened Types
  import opened PathHelpers
  import opened NodesHelpers

  /** `is_image`: a string whose text before the first slash is `image`. */
  predicate IsImage(mediaType: Value) {
    mediaType.Str? && Split(mediaType.s, '/')[0] == "image"
  }

  /** A media type is an image exactly when it is the string `image` or starts
      with `image/`; anything that is not a string never is. */
  lemma IsImageIff(mediaType: Value)
    ensures IsImage(mediaType) <==>
      mediaType.Str? && (mediaType.s == "image" || (|mediaType.s| >= 6 && mediaType.s[..6] == "image/"))
  {
    if mediaType.Str? {
      var s := mediaType.s;
      SplitFirst(s, '/');
      var f := Split(s, '/')[0];
      if |s| >= 6 && s[..6] == "image/" {
        assert s[5] == '/';
        assert forall j :: 0 <= j < |f| ==> s[j] == f[j] != '/';
        assert forall j :: 0 <= j < 5 ==> s[j] == "image/"[j] != '/';
        assert |f| == 5;
        assert f == s[..5];
      }
      if f == "image" && s != "image" {
        assert s[..5] == "image";
        assert s[..6] == "image/";
      }
    }
  }

  /** The File checker: a `File` node whose media type is an image. */
  predicate Check(node: Node) {
    node.internal.typeName == "File" && IsImage(node.internal.mediaType)
  }

  /** `get_node_object_url`: the relative path of a File node; any other node
      type is refused. */
  function NodeObjectUrl(node: Node): (r: Result<Value, Error>)
    ensures node.internal.typeName == "File" <==> r.Ok?
    ensures r.Ok? ==> r.value == node.relativePath
    ensures r.Err? ==> r.error == UnrecognizedNode
  {
    if node.internal.typeName == "File" then Ok(node.relativePath) else Err(UnrecognizedNode)
  }

  /** The File transformer. */
  function Transform(node: Node, opts: SourceOptions, global: PluginOptions): (r: Result<TransformOutcome, Error>)
    ensures node.internal.typeName != "File" ==> r == Err(UnrecognizedNode)
    ensures node.internal.typeName == "File" && !Truthy(node.relativePath) ==>
      r == Err(FileNodeError("unable to extract url/relative path"))
    ensures node.internal.typeName == "File" && Truthy(node.relativePath) && !Truthy(node.internal.contentDigest) ==>
      r == Err(FileNodeError("no content digest"))
    ensures r.Ok? <==>
      node.internal.typeName == "File" && Truthy(node.relativePath) && node.relativePath.Str?
      && Truthy(node.internal.contentDigest) && node.internal.contentDigest.Str?
    ensures r.Ok? ==> r.value.created.Some? && var a := r.value.created.value;
      && a.tokenizedUrl == ReplacementToken + StaticSegment(node.internal.contentDigest.s, node.relativePath.s)
      && a.baseUrl == node.relativePath.s
      && a.distributionUrl == DeliveryAddress(opts, global)
      && a.directives == ChosenDirectives(opts, global)
      && a.internal.mediaType == node.internal.mediaType
      && a.replacementToken == ReplacementToken
      && a.parentType == node.internal.typeName
      && a.parent == node.id
      && a.id == "imgeng-" + node.id
      && a.internal.typeName == "ImageEngineAsset"
      && a.internal.description == "Image Engine Asset definition"
      && a.internal.contentDigest == node.internal.contentDigest
      && a.parentPath == node.absolutePath
      && a.parentFilename == node.name
      && r.value.effects == [CreateNode(a), CreateParentChildLink(node, a)]
  {
    var dist := DeliveryAddress(opts, global);
    var directives := ChosenDirectives(opts, global);
    var url :- NodeObjectUrl(node);
    var digest := node.internal.contentDigest;
    if Truthy(url) && Truthy(digest) then
      if url.Str? && digest.Str? then
        var finalUrl := ReplacementToken + StaticSegment(digest.s, url.s);
        var created := NodeCreate(node, url.s, finalUrl, dist, directives, node.internal.mediaType);
        Ok(TransformOutcome(Some(created.0), created.1))
      else
        Err(TypeError("path.join: argument is not a string"))
    else
      Err(FileNodeError(if Truthy(url) then "no content digest" else "unable to extract url/relative path"))
  }
}

=== FILE: platform_sanityio.dfy ===
/** The Sanity platform: image assets whose `url` points at the Sanity CDN. */
module SanityioPlatform {
  import opened Wrappers
  import opened Js
  import opened JsStrings
  import opened Types
  import opened NodesHelpers

  const DefaultReplaceUrl: string := "https://cdn.sanity.io/"

  /** The Sanity checker: the node's type is `SanityImageAsset`. */
  predicate Check(node: Node) {
    node.internal.typeName == "SanityImageAsset"
  }

  /** The Sanity transformer. Calling `replace` on a `url` that is not a
      string throws. */
  function Transform(node: Node, opts: SourceOptions, global: PluginOptions): (r: Result<TransformOutcome, Error>)
    ensures r.Ok? <==> node.url.Str?
    ensures r.Err? ==> r.error.TypeError?
    ensures r.Ok? ==> r.value.created.Some? && var a := r.value.created.value;
      && a.baseUrl == node.url.s
      && a.tokenizedUrl == Tokenize(node.url.s, HostPrefix(opts, DefaultReplaceUrl))
      && (!Truthy(opts.replaceUrl) ==> a.tokenizedUrl == Tokenize(node.url.s, DefaultReplaceUrl))
      && a.distributionUrl == DeliveryAddress(opts, global)
      && a.directives == ChosenDirectives(opts, global)
      && (Truthy(node.mimeType) ==> a.internal.mediaType == node.mimeType)
      && (!Truthy(node.mimeType) ==> a.internal.mediaType == node.internal.mediaType)
      && a.replacementToken == ReplacementToken
      && a.parentType == node.internal.typeName
      && a.parent == node.id
      && a.id == "imgeng-" + node.id
      && a.internal.typeName == "ImageEngineAsset"
      && a.internal.description == "Image Engine Asset definition"
      && a.internal.contentDigest == node.internal.contentDigest
      && (node.internal.typeName == "File" ==> a.parentPath == node.absolutePath && a.parentFilename == node.name)
      && (node.internal.typeName != "File" ==> a.parentPath == Null && a.parentFilename == Null)
      && r.value.effects == [CreateNode(a), CreateParentChildLink(node, a)]
  {
    var dist := DeliveryAddress(opts, global);
    var directives := ChosenDirectives(opts, global);
    var prefix := HostPrefix(opts, DefaultReplaceUrl);
    if !node.url.Str? then
      Err(TypeError("url.replace is not a function"))
    else
      var created := NodeCreate(node, node.url.s, Tokenize(node.url.s, prefix), dist, directives, node.mimeType);
      Ok(TransformOutcome(Some(created.0), created.1))
  }
}

=== FILE: platform_storyblok.dfy ===
/** The Storyblok platform: entries whose parsed content has an `assets`
    member, whose `filename` points at the Storyblok asset host. */
module StoryblokPlatform {
  import opened Wrappers
  import opened Js
  import opened JsStrings
  import opened Types
  import opened NodesHelpers

  const DefaultReplaceUrl: string := "https://a.storyblok.com/"

  /** The Storyblok checker: a `StoryblokEntry` whose content defines
      `assets`, even as `null`. */
  predicate Check(node: Node) {
    node.internal.typeName == "StoryblokEntry" && !node.content.AssetsAbsent?
  }

  /** The Storyblok transformer. Falsy `assets` yield `null` and no node; a
      `filename` that is not a string makes `replace` throw. */
  function Transform(node: Node, opts: SourceOptions, global: PluginOptions): (r: Result<TransformOutcome, Error>)
    ensures !node.content.AssetsPresent? ==> r == Ok(TransformOutcome(None, []))
    ensures node.content.AssetsPresent? ==> (r.Ok? <==> node.content.filename.Str?)
    ensures r.Err? ==> r.error.TypeError?
    ensures r.Ok? && node.content.AssetsPresent? ==>
      r.value.created.Some? && var a := r.value.created.value; var filename := node.content.filename.s;
      && a.baseUrl == filename
      && a.tokenizedUrl == Tokenize(filename, HostPrefix(opts, DefaultReplaceUrl))
      && (!Truthy(opts.replaceUrl) ==> a.tokenizedUrl == Tokenize(filename, DefaultReplaceUrl))
      && a.distributionUrl == DeliveryAddress(opts, global)
      && a.directives == ChosenDirectives(opts, global)
      && a.internal.mediaType == node.internal.mediaType
      && a.replacementToken == ReplacementToken
      && a.parentType == node.internal.typeName
      && a.parent == node.id
      && a.id == "imgeng-" + node.id
      && a.internal.typeName == "ImageEngineAsset"
      && a.internal.description == "Image Engine Asset definition"
      && a.internal.contentDigest == node.internal.contentDigest
      && (node.internal.typeName == "File" ==> a.parentPath == node.absolutePath && a.parentFilename == node.name)
      && (node.internal.typeName != "File" ==> a.parentPath == Null && a.parentFilename == Null)
      && r.value.effects == [CreateNode(a), CreateParentChildLink(node, a)]
  {
    var dist := DeliveryAddress(opts, global);
    var directives := ChosenDirectives(opts, global);
    var prefix := HostPrefix(opts, DefaultReplaceUrl);
    match node.content
    case AssetsPresent(filename) =>
      if !filename.Str? then
        Err(TypeError("filename.replace is not a function"))
      else
        var created := NodeCreate(node, filename.s, Tokenize(filename.s, prefix), dist, directives, node.internal.mediaType);
        Ok(TransformOutcome(Some(created.0), created.1))
    case _ => Ok(TransformOutcome(None, []))
  }
}

=== FILE: plugin.dfy ===
/** The node-creation hook: which configured sources apply to a node, and the
    ordered application of their transforms. */
module Plugin {
  import opened Wrappers
  import opened Js
  import opened Types
  import opened DefaultPlatforms

  /** `maybe_default_checker`: the registry's checker for a platform name. */
  function MaybeDefaultChecker(key: string): (r: Option<Checker>)
    ensures r.Some? <==> key in Registry()
    ensures r.Some? ==> r.value == DefaultChecker(Registry()[key])
  {
    if key in Registry() then Some(DefaultChecker(Registry()[key])) else None
  }

  /** `maybe_default_transform`: the registry's transformer for a platform name. */
  function MaybeDefaultTransform(key: string): (r: Option<Transformer>)
    ensures r.Some? <==> key in Registry()
    ensures r.Some? ==> r.value == DefaultTransformer(Registry()[key])
  {
    if key in Registry() then Some(DefaultTransformer(Registry()[key])) else None
  }

  /** What one configured source resolves to: its key, checker, transformer
      and the options record handed to both. */
  datatype Resolved = Resolved(key: string, checker: Option<Checker>, transform: Option<Transformer>, opts: SourceOptions)

  /** The options record built for a bare-name source: `{source: name}`. */
  function NameOnly(name: string): SourceOptions {
    SourceOptions(name, Undefined, Undefined, None, None, None)
  }

  /** The first half of the `reduce` step: a bare name takes the registry's
      pair for that name; an options record takes its own `checker` and
      `transform` when given and the registry's pair for `source` otherwise. */
  function ResolveSource(src: SourceConfig): (r: Resolved)
    ensures src.Named? ==>
      r == Resolved(src.name, MaybeDefaultChecker(src.name), MaybeDefaultTransform(src.name), NameOnly(src.name))
    ensures src.Configured? ==> r.key == src.opts.source && r.opts == src.opts
    ensures src.Configured? && src.opts.checker.Some? ==> r.checker == src.opts.checker
    ensures src.Configured? && src.opts.checker.None? ==> r.checker == MaybeDefaultChecker(src.opts.source)
    ensures src.Configured? && src.opts.transform.Some? ==> r.transform == src.opts.transform
    ensures src.Configured? && src.opts.transform.None? ==> r.transform == MaybeDefaultTransform(src.opts.source)
  {
    match src
    case Named(name) =>
      Resolved(name, MaybeDefaultChecker(name), MaybeDefaultTransform(name), NameOnly(name))
    case Configured(opts) =>
      var checker := if opts.checker.Some? then opts.checker else MaybeDefaultChecker(opts.source);
      var transform := if opts.transform.Some? then opts.transform else MaybeDefaultTransform(opts.source);
      Resolved(opts.source, checker, transform, opts)
  }

  /** Calling a checker: a default one looks at the node, a user one answers
      or throws as `custom` says. */
  function RunChecker(c: Checker, node: Node, opts: SourceOptions, global: PluginOptions, custom: Custom): Result<bool, Error> {
    match c
    case DefaultChecker(p) => Ok(DefaultPlatforms.Check(p, node))
    case CustomChecker(tag) => custom.accepts(tag, node, opts, global)
  }

  /** One entry of the result: a transformer and the options it runs with. */
  datatype Selected = Selected(transform: Transformer, opts: SourceOptions)

  /** What the `reduce` step does with one source: throw, skip it, or keep it. */
  datatype Step = Fail(error: Error) | Skip | Take(selected: Selected)

  /** One step of `extract_transforms`. A missing checker throws whatever the
      node; a checker that throws aborts with its error; a rejecting checker
      skips the source even if no transformer exists; an accepting checker
      with no transformer throws. */
  function StepOf(node: Node, src: SourceConfig, global: PluginOptions, custom: Custom): (r: Step)
    ensures var s := ResolveSource(src);
      && (s.checker.None? ==> r == Fail(MissingChecker(s.key)))
      && (s.checker.Some? && RunChecker(s.checker.value, node, s.opts, global, custom).Err? ==>
            r == Fail(RunChecker(s.checker.value, node, s.opts, global, custom).error))
      && (r == Skip <==> s.checker.Some? && RunChecker(s.checker.value, node, s.opts, global, custom) == Ok(false))
      && (s.checker.Some? && RunChecker(s.checker.value, node, s.opts, global, custom) == Ok(true) && s.transform.None? ==>
            r == Fail(MissingTransformer(s.key)))
      && (r.Take? <==>
            s.checker.Some? && RunChecker(s.checker.value, node, s.opts, global, custom) == Ok(true) && s.transform.Some?)
      && (r.Take? ==> r.selected == Selected(s.transform.value, s.opts))
  {
    var s := ResolveSource(src);
    match s.checker
    case None => Fail(MissingChecker(s.key))
    case Some(c) =>
      match RunChecker(c, node, s.opts, global, custom)
      case Err(e) => Fail(e)
      case Ok(true) =>
        (match s.transform
         case Some(t) => Take(Selected(t, s.opts))
         case None => Fail(MissingTransformer(s.key)))
      case Ok(false) => Skip
  }

  function Taken(step: Step): seq<Selected> {
    if step.Take? then [step.selected] else []
  }

  /** The kept entries of a list of steps, in order. */
  function Kept(steps: seq<Step>): seq<Selected> {
    if |steps| == 0 then []
    else Kept(steps[..|steps| - 1]) + Taken(steps[|steps| - 1])
  }

  /** The step taken for each source. */
  function StepsOf(node: Node, sources: seq<SourceConfig>, global: PluginOptions, custom: Custom): (r: seq<Step>)
    ensures |r| == |sources|
  {
    seq(|sources|, i requires 0 <= i < |sources| => StepOf(node, sources[i], global, custom))
  }

  /** The reference result: the kept entries of all sources, in source order. */
  function Accepted(node: Node, sources: seq<SourceConfig>, global: PluginOptions, custom: Custom): seq<Selected> {
    Kept(StepsOf(node, sources, global, custom))
  }

  /** No source throws. */
  predicate NoFailure(node: Node, sources: seq<SourceConfig>, global: PluginOptions, custom: Custom) {
    forall i :: 0 <= i < |sources| ==> !StepOf(node, sources[i], global, custom).Fail?
  }

  /** Source `k` is the first that throws, and it throws `e`. */
  predicate FirstFailure(node: Node, sources: seq<SourceConfig>, global: PluginOptions, custom: Custom, k: int, e: Error) {
    && 0 <= k < |sources|
    && StepOf(node, sources[k], global, custom) == Fail(e)
    && forall i :: 0 <= i < k ==> !StepOf(node, sources[i], global, custom).Fail?
  }

  /** The kept entries can be counted from the front as well. */
  lemma {:induction false} KeptCons(x: Step, rest: seq<Step>)
    ensures Kept([x] + rest) == Taken(x) + Kept(rest)
    decreases |rest|
  {
    var all := [x] + rest;
    if |rest| == 0 {
      assert all[..0] == [];
    } else {
      var init := rest[..|rest| - 1];
      assert all[..|all| - 1] == [x] + init;
      assert all[|all| - 1] == rest[|rest| - 1];
      KeptCons(x, init);
    }
  }

  lemma AcceptedCons(node: Node, sources: seq<SourceConfig>, global: PluginOptions, custom: Custom)
    requires |sources| > 0
    ensures Accepted(node, sources, global, custom) ==
      Taken(StepOf(node, sources[0], global, custom)) + Accepted(node, sources[1..], global, custom)
  {
    var steps := StepsOf(node, sources, global, custom);
    assert steps == [steps[0]] + StepsOf(node, sources[1..], global, custom);
    KeptCons(steps[0], StepsOf(node, sources[1..], global, custom));
  }

  /** The `reduce` over the sources, front to back, with the accumulator. */
  function Extract(node: Node, sources: seq<SourceConfig>, global: PluginOptions, custom: Custom, acc: seq<Selected>): Result<seq<Selected>, Error>
    decreases |sources|
  {
    if |sources| == 0 then Ok(acc)
    else
      match StepOf(node, sources[0], global, custom)
      case Fail(e) => Err(e)
      case Skip => Extract(node, sources[1..], global, custom, acc)
      case Take(sel) => Extract(node, sources[1..], global, custom, acc + [sel])
  }

  /** Source `i + 1` of a list is source `i` of its tail. */
  lemma TailSteps(node: Node, sources: seq<SourceConfig>, global: PluginOptions, custom: Custom)
    requires |sources| > 0
    ensures forall i :: 0 <= i < |sources| - 1 ==>
      StepOf(node, sources[1..][i], global, custom) == StepOf(node, sources[i + 1], global, custom)
    ensures NoFailure(node, sources, global, custom) <==>
      !StepOf(node, sources[0], global, custom).Fail? && NoFailure(node, sources[1..], global, custom)
  {
    var rest := sources[1..];
    if !StepOf(node, sources[0], global, custom).Fail? && NoFailure(node, rest, global, custom) {
      forall i | 0 <= i < |sources| ensures !StepOf(node, sources[i], global, custom).Fail? {
        if i > 0 {
          assert sources[i] == rest[i - 1];
        }
      }
    }
  }

  /** A source that does not throw adds its kept entry and hands on. */
  lemma ExtractStep(node: Node, sources: seq<SourceConfig>, global: PluginOptions, custom: Custom, acc: seq<Selected>)
    requires |sources| > 0 && !StepOf(node, sources[0], global, custom).Fail?
    ensures Extract(node, sources, global, custom, acc) ==
      Extract(node, sources[1..], global, custom, acc + Taken(StepOf(node, sources[0], global, custom)))
  {
    if StepOf(node, sources[0], global, custom).Skip? {
      assert acc + Taken(StepOf(node, sources[0], global, custom)) == acc;
    }
  }

  /** The fold succeeds exactly when no source throws. */
  lemma {:induction false} ExtractSucceeds(node: Node, sources: seq<SourceConfig>, global: PluginOptions, custom: Custom, acc: seq<Selected>)
    ensures Extract(node, sources, global, custom, acc).Ok? <==> NoFailure(node, sources, global, custom)
    decreases |sources|
  {
    if |sources| > 0 {
      TailSteps(node, sources, global, custom);
      var step := StepOf(node, sources[0], global, custom);
      if !step.Fail? {
        ExtractStep(node, sources, global, custom, acc);
        ExtractSucceeds(node, sources[1..], global, custom, acc + Taken(step));
      }
    }
  }

  /** On success the fold appends the kept entries to the accumulator. */
  lemma {:induction false} ExtractValue(node: Node, sources: seq<SourceConfig>, global: PluginOptions, custom: Custom, acc: seq<Selected>)
    ensures var r := Extract(node, sources, global, custom, acc);
      r.Ok? ==> r.value == acc + Accepted(node, sources, global, custom)
    decreases |sources|
  {
    if |sources| > 0 {
      var step := StepOf(node, sources[0], global, custom);
      if !step.Fail? {
        ExtractStep(node, sources, global, custom, acc);
        ExtractValue(node, sources[1..], global, custom, acc + Taken(step));
        AcceptedCons(node, sources, global, custom);
      }
    }
  }

  /** When the fold throws, it throws the error of the first source that does. */
  lemma {:induction false} ExtractFails(node: Node, sources: seq<SourceConfig>, global: PluginOptions, custom: Custom, acc: seq<Selected>)
    ensures var r := Extract(node, sources, global, custom, acc);
      r.Err? ==> exists k :: FirstFailure(node, sources, global, custom, k, r.error)
    decreases |sources|
  {
    var r := Extract(node, sources, global, custom, acc);
    if |sources| > 0 && r.Err? {
      var rest := sources[1..];
      var step := StepOf(node, sources[0], global, custom);
      if step.Fail? {
        assert FirstFailure(node, sources, global, custom, 0, r.error);
      } else {
        var acc' := acc + Taken(step);
        if step.Skip? {
          assert acc' == acc;
        }
        assert r == Extract(node, rest, global, custom, acc');
        ExtractFails(node, rest, global, custom, acc');
        TailSteps(node, sources, global, custom);
        var k :| FirstFailure(node, rest, global, custom, k, r.error);
        assert FirstFailure(node, sources, global, custom, k + 1, r.error);
      }
    }
  }

  /** `extract_transforms`: the sources that apply to the node, each with its
      options, in configuration order; the first source that cannot be
      resolved aborts the whole selection with its error. */
  function ExtractTransforms(node: Node, sources: seq<SourceConfig>, global: PluginOptions, custom: Custom): (r: Result<seq<Selected>, Error>)
    ensures r.Ok? <==> NoFailure(node, sources, global, custom)
    ensures r.Ok? ==> r.value == Accepted(node, sources, global, custom)
    ensures r.Err? ==> exists k :: FirstFailure(node, sources, global, custom, k, r.error)
  {
    ExtractSucceeds(node, sources, global, custom, []);
    ExtractValue(node, sources, global, custom, []);
    ExtractFails(node, sources, global, custom, []);
    Extract(node, sources, global, custom, [])
  }

  /** A source named after something that is not a platform (a node type such
      as `File`, say) has no checker: every node makes it throw. */
  lemma UnknownNameAlwaysFails(node: Node, name: string, global: PluginOptions, custom: Custom)
    requires name !in Registry()
    ensures ExtractTransforms(node, [Named(name)], global, custom) == Err(MissingChecker(name))
    ensures Message(ExtractTransforms(node, [Named(name)], global, custom).error) == "Unable to find checker function for " + name
  {
    var r := ExtractTransforms(node, [Named(name)], global, custom);
    var k :| FirstFailure(node, [Named(name)], global, custom, k, r.error);
    assert k == 0;
  }

  /** The first error decides the outcome: sources after it are never looked at. */
  lemma ErrorStopsLaterSources(node: Node, before: seq<SourceConfig>, after: seq<SourceConfig>, global: PluginOptions, custom: Custom)
    requires ExtractTransforms(node, before, global, custom).Err?
    ensures ExtractTransforms(node, before + after, global, custom) == ExtractTransforms(node, before, global, custom)
  {
    var all := before + after;
    var e := ExtractTransforms(node, before, global, custom).error;
    var k :| FirstFailure(node, before, global, custom, k, e);
    forall i | 0 <= i < |before| ensures all[i] == before[i] { }
    assert FirstFailure(node, all, global, custom, k, e);
    assert !NoFailure(node, all, global, custom);
    var e' := ExtractTransforms(node, all, global, custom).error;
    var k' :| FirstFailure(node, all, global, custom, k', e');
    assert k' == k;
  }

  /** A node that every configured checker rejects gets no transform and
      raises nothing, whether or not transformers exist. */
  lemma {:induction false} AllRejectedNothingSelected(node: Node, sources: seq<SourceConfig>, global: PluginOptions, custom: Custom)
    requires forall i :: 0 <= i < |sources| ==> StepOf(node, sources[i], global, custom) == Skip
    ensures ExtractTransforms(node, sources, global, custom) == Ok([])
  {
    AcceptedNone(node, sources, global, custom);
  }

  lemma {:induction false} KeptNone(steps: seq<Step>)
    requires forall i :: 0 <= i < |steps| ==> steps[i] == Skip
    ensures Kept(steps) == []
  {
    if |steps| > 0 {
      KeptNone(steps[..|steps| - 1]);
    }
  }

  lemma AcceptedNone(node: Node, sources: seq<SourceConfig>, global: PluginOptions, custom: Custom)
    requires forall i :: 0 <= i < |sources| ==> StepOf(node, sources[i], global, custom) == Skip
    ensures Accepted(node, sources, global, custom) == []
  {
    KeptNone(StepsOf(node, sources, global, custom));
  }

  /** Running one selected transform: a default one through its platform, a
      user one as `custom` says. Its return value is dropped; only the host
      actions it issued, and what it threw, remain. A default transform that
      throws does so before issuing any action. */
  function Apply(sel: Selected, node: Node, global: PluginOptions, custom: Custom): Run {
    match sel.transform
    case DefaultTransformer(p) =>
      (match DefaultPlatforms.Transform(p, node, sel.opts, global)
       case Ok(out) => Run(out.effects, None)
       case Err(e) => Run([], Some(e)))
    case CustomTransformer(tag) => custom.run(tag, node, sel.opts, global)
  }

  /** The reference for applying transforms in order: the actions of each in
      turn, up to and including those of the first one that throws, whose
      error ends the run. */
  function RunAll(node: Node, sels: seq<Selected>, global: PluginOptions, custom: Custom): Run {
    if |sels| == 0 then Run([], None)
    else
      var before := RunAll(node, sels[..|sels| - 1], global, custom);
      if before.thrown.Some? then before
      else
        var last := Apply(sels[|sels| - 1], node, global, custom);
        Run(before.effects + last.effects, last.thrown)
  }

  /** Once a prefix of the transforms throws, running more of them changes
      nothing: no further action is issued and the error stays. */
  lemma {:induction false} RunAllErrorPersists(node: Node, sels: seq<Selected>, j: nat, global: PluginOptions, custom: Custom)
    requires j <= |sels|
    requires RunAll(node, sels[..j], global, custom).thrown.Some?
    ensures RunAll(node, sels, global, custom) == RunAll(node, sels[..j], global, custom)
    decreases |sels| - j
  {
    if j < |sels| {
      var init := sels[..|sels| - 1];
      assert init[..j] == sels[..j];
      RunAllErrorPersists(node, init, j, global, custom);
    } else {
      assert sels[..j] == sels;
    }
  }

  /** The actions of a longer run extend those of any prefix of it: nothing
      issued is ever taken back. */
  lemma {:induction false} RunAllExtends(node: Node, sels: seq<Selected>, j: nat, global: PluginOptions, custom: Custom)
    requires j <= |sels|
    ensures var pre := RunAll(node, sels[..j], global, custom).effects;
      var all := RunAll(node, sels, global, custom).effects;
      |pre| <= |all| && all[..|pre|] == pre
    decreases |sels| - j
  {
    if j < |sels| {
      var init := sels[..|sels| - 1];
      assert init[..j] == sels[..j];
      RunAllExtends(node, init, j, global, custom);
    } else {
      assert sels[..j] == sels;
    }
  }

  /** `on_create_node`: selects the transforms for the node and runs them in
      order on the same node, which it returns unchanged. The host actions
      issued come back in every case: those of the transforms that ran, up to
      and including the one that threw. A failed selection issues none. */
  method OnCreateNode(node: Node, global: PluginOptions, custom: Custom) returns (r: Result<Node, Error>, effects: seq<Effect>)
    ensures var ex := ExtractTransforms(node, global.sources, global, custom);
      && (ex.Err? ==> r == Err(ex.error) && effects == [])
      && (ex.Ok? ==> var run := RunAll(node, ex.value, global, custom);
            && effects == run.effects
            && (run.thrown.None? ==> r == Ok(node))
            && (run.thrown.Some? ==> r == Err(run.thrown.value)))
  {
    var ex := ExtractTransforms(node, global.sources, global, custom);
    if ex.Err? {
      return Err(ex.error), [];
    }
    var sels := ex.value;
    effects := [];
    var i := 0;
    while i < |sels|
      invariant 0 <= i <= |sels|
      invariant RunAll(node, sels[..i], global, custom) == Run(effects, None)
    {
      var out := Apply(sels[i], node, global, custom);
      assert sels[..i + 1][..i] == sels[..i];
      effects := effects + out.effects;
      if out.thrown.Some? {
        RunAllErrorPersists(node, sels, i + 1, global, custom);
        return Err(out.thrown.value), effects;
      }
      i := i + 1;
    }
    assert sels[..i] == sels;
    return Ok(node), effects;
  }
}

=== FILE: resolvers.dfy ===
/** Query-time resolution of the `url`, `gatsbyImageData` and
    `responsive_details` fields of a derived node: directive merging, address
    resolution, and the callback that builds one image candidate.

    The CDN URL builder and the responsive-image generator are external and
    appear as function parameters (`build`, `generate`); the set of directive
    names the builder understands is the parameter `known`. Whether the build
    runs in production is the parameter `production`. Since the code merges
    with `Object.assign`, which writes into its first argument, the functions
    that merge return the updated node and argument record along with their
    result. */
module Resolvers {
  import opened Wrappers
  import opened Js
  import opened JsStrings
  import opened Types
  import opened PathHelpers

  /** The arguments of one field request. */
  type Args = map<string, Value>

  const PluginName: string := "@imageengine/gatsby-plugin-imageengine"

  /** `directives_args`: the node's stored directives overlaid with the request
      arguments, restricted to the known directive names and to truthy values.
      As `Object.assign` writes into the stored directive record, the node
      comes back with the arguments merged into its directives (a node with no
      directives merges into a fresh record that is dropped). */
  function DirectivesArgs(source: StoredAsset, args: Args, known: set<string>): (r: (Directives, StoredAsset))
    ensures forall k :: k in r.0 ==> k in known && Truthy(r.0[k])
    ensures forall k :: k in known && k in args && Truthy(args[k]) ==> k in r.0 && r.0[k] == args[k]
    ensures forall k :: k in args && !Truthy(args[k]) ==> k !in r.0
    ensures source.node.directives.Some? ==>
      forall k :: k in known && k !in args && k in source.node.directives.value && Truthy(source.node.directives.value[k]) ==>
        k in r.0 && r.0[k] == source.node.directives.value[k]
    ensures source.node.directives.Some? ==> forall k :: k in r.0 ==>
      var merged := source.node.directives.value + args; k in merged && r.0[k] == merged[k]
    ensures source.node.directives.None? ==> forall k :: k in r.0 ==> k in args && r.0[k] == args[k]
    ensures source.node.directives.Some? ==> r.1.node.directives == Some(source.node.directives.value + args)
    ensures source.node.directives.None? ==> r.1 == source
    ensures r.1 == source.(node := source.node.(directives := r.1.node.directives))
  {
    var stored := if source.node.directives.Some? then source.node.directives.value else map[];
    var merged := stored + args;
    var result := map k | k in known && k in merged && Truthy(merged[k]) :: merged[k];
    var source' := if source.node.directives.Some? then source.(node := source.node.(directives := Some(merged))) else source;
    (result, source')
  }

  /** Arguments of one request survive into the next one on the same node:
      a later request with no arguments still gets them. */
  lemma QueryArgsPersist(source: StoredAsset, first: Args, known: set<string>, k: string)
    requires source.node.directives.Some?
    requires k in known && k in first && Truthy(first[k])
    ensures var later := DirectivesArgs(DirectivesArgs(source, first, known).1, map[], known).0;
      k in later && later[k] == first[k]
  {
  }

  /** `args.ie_distribution || source.ie_distribution`. */
  function Distribution(source: StoredAsset, args: Args): (r: Value)
    ensures Truthy(Get(args, "ie_distribution")) ==> r == args["ie_distribution"]
    ensures !Truthy(Get(args, "ie_distribution")) ==> r == source.ieDistribution
  {
    Or(Get(args, "ie_distribution"), source.ieDistribution)
  }

  /** `ie_replace_url`: outside production, a node whose parent is a File
      resolves to its local static location; otherwise the first sentinel in
      the tokenized URL is replaced by the distribution address, converted to
      a string. */
  function ReplaceUrl(source: StoredAsset, args: Args, production: bool): (r: Result<string, Error>)
    ensures source.node.parentType == "File" && !production ==>
      (r.Ok? <==> source.node.internal.contentDigest.Str?) &&
      (r.Ok? ==> r.value == StaticSegment(source.node.internal.contentDigest.s, source.node.baseUrl))
    ensures !(source.node.parentType == "File" && !production) ==>
      r == Ok(Replace(source.node.tokenizedUrl, source.node.replacementToken, ToString(Distribution(source, args))))
  {
    if source.node.parentType == "File" && !production then
      var digest := source.node.internal.contentDigest;
      if digest.Str? then Ok(StaticSegment(digest.s, source.node.baseUrl))
      else Err(TypeError("path.join: digest is not a string"))
    else
      var distribution := ToString(Distribution(source, args));
      var url := source.node.tokenizedUrl;
      var token := source.node.replacementToken;
      Ok(Replace(url, token, distribution))
  }

  /** The local address ignores the token, the stored address and every
      request argument. */
  lemma LocalAddressIgnoresArgs(a: StoredAsset, b: StoredAsset, argsA: Args, argsB: Args)
    requires a.node.parentType == "File" && b.node.parentType == "File"
    requires a.node.internal.contentDigest == b.node.internal.contentDigest
    requires a.node.baseUrl == b.node.baseUrl
    ensures ReplaceUrl(a, argsA, false) == ReplaceUrl(b, argsB, false)
  {
  }

  /** Node creation stores the configured address under `distribution_url`,
      but resolution reads `ie_distribution`, which node creation never
      writes. So unless the request passes an address, the sentinel of a node
      as created is replaced by the text "undefined", whatever address was
      configured. */
  lemma StoredAddressUnused(a: AssetNode, args: Args, production: bool, addr: Value)
    requires !(a.parentType == "File" && !production)
    requires !Truthy(Get(args, "ie_distribution"))
    ensures ReplaceUrl(FromCreated(a), args, production) == Ok(Replace(a.tokenizedUrl, a.replacementToken, "undefined"))
    ensures ReplaceUrl(FromCreated(a), args, production) ==
            ReplaceUrl(FromCreated(a.(distributionUrl := addr)), args, production)
  {
  }

  /** `ie_image_resolver`: the CDN URL of the node for a request. The address
      is resolved first, so when that throws the stored directives are left
      alone. */
  function ImageResolver(source: StoredAsset, args: Args, production: bool, known: set<string>,
                         build: (string, Directives) -> string): (r: Result<(string, StoredAsset), Error>)
    ensures r.Ok? <==> ReplaceUrl(source, args, production).Ok?
    ensures r.Ok? ==> r.value.0 == build(ReplaceUrl(source, args, production).value, DirectivesArgs(source, args, known).0)
    ensures r.Ok? ==> r.value.1 == DirectivesArgs(source, args, known).1
    ensures r.Err? ==> r.error == ReplaceUrl(source, args, production).error
  {
    var url :- ReplaceUrl(source, args, production);
    var merged := DirectivesArgs(source, args, known);
    Ok((build(url, merged.0), merged.1))
  }

  /** The `formats` set-up of the `url` and `gatsbyImageData` fields: a
      truthy `format` becomes the only requested output format; otherwise the
      arguments are left as they are. */
  function WithRequestedFormat(args: Args): (r: Args)
    ensures Truthy(Get(args, "format")) ==> "formats" in r && r["formats"] == Arr([args["format"]])
    ensures forall k :: k in args && k != "formats" ==> k in r && r[k] == args[k]
    ensures r.Keys <= args.Keys + {"formats"}
    ensures !Truthy(Get(args, "format")) ==> r == args
  {
    if Truthy(Get(args, "format")) then args["formats" := Arr([args["format"]])] else args
  }

  /** The `formats` set-up of the `responsive_details` field: always exactly
      one requested format, the `format` argument or the empty string. */
  function WithSingleFormat(args: Args): (r: Args)
    ensures "formats" in r && r["formats"].Arr? && |r["formats"].items| == 1
    ensures Truthy(Get(args, "format")) ==> r["formats"].items[0] == args["format"]
    ensures !Truthy(Get(args, "format")) ==> r["formats"].items[0] == Str("")
    ensures forall k :: k in args && k != "formats" ==> k in r && r[k] == args[k]
    ensures r.Keys == args.Keys + {"formats"}
  {
    args["formats" := Arr([Or(Get(args, "format"), Str(""))])]
  }

  /** The two set-ups agree exactly when a truthy format is requested. */
  lemma FormatSetupsAgree(args: Args)
    ensures Truthy(Get(args, "format")) ==> WithRequestedFormat(args) == WithSingleFormat(args)
    ensures !Truthy(Get(args, "format")) && "formats" !in args ==> WithRequestedFormat(args) != WithSingleFormat(args)
  {
    if !Truthy(Get(args, "format")) && "formats" !in args {
      assert "formats" in WithSingleFormat(args);
    }
  }

  /** The intrinsic facts about the source image handed to the generator. */
  datatype Metadata = Metadata(width: Value, height: Value, format: Value)

  /** `source_metadata`: width and height from the node, falling back to the
      merged directives; the format is the media type's text after the first
      slash (up to the next one), `undefined` without a slash. A media type
      that is not a string makes `split` throw. */
  function SourceMetadata(source: StoredAsset, merged: Directives): (r: Result<Metadata, Error>)
    ensures r.Ok? <==> source.node.internal.mediaType.Str?
    ensures r.Ok? ==> r.value.width == Or(source.width, Get(merged, "width"))
    ensures r.Ok? ==> r.value.height == Or(source.height, Get(merged, "height"))
    ensures r.Ok? ==> var s := source.node.internal.mediaType.s;
      (r.value.format == Undefined <==> '/' !in s) && (r.value.format.Undefined? || r.value.format.Str?)
    ensures r.Ok? && r.value.format.Str? ==>
      var s := source.node.internal.mediaType.s; var f := r.value.format.s; var head := Split(s, '/')[0];
      && '/' !in head && '/' !in f
      && |head| + 1 + |f| <= |s|
      && s[..|head| + 1 + |f|] == head + "/" + f
      && (|head| + 1 + |f| == |s| || s[|head| + 1 + |f|] == '/')
  {
    var mediaType := source.node.internal.mediaType;
    if !mediaType.Str? then Err(TypeError("mediaType.split is not a function"))
    else
      var parts := Split(mediaType.s, '/');
      SplitFirst(mediaType.s, '/');
      var format := if |parts| > 1 then Str(parts[1]) else Undefined;
      assert '/' !in mediaType.s ==> |parts| == 1;
      assert |parts| == 1 ==> '/' !in mediaType.s by {
        if |parts| == 1 {
          assert parts[0] == mediaType.s;
        }
      }
      if |parts| > 1 then
        SplitSecond(mediaType.s, '/');
        Ok(Metadata(Or(source.width, Get(merged, "width")), Or(source.height, Get(merged, "height")), format))
      else
        Ok(Metadata(Or(source.width, Get(merged, "width")), Or(source.height, Get(merged, "height")), format))
  }

  /** The arguments handed to the responsive-image generator. The code also
      spreads `options` at the top level; that copy is not kept here. */
  datatype ImageDataArgs = ImageDataArgs(options: Args, sourceMetadata: Metadata, pluginName: string, filename: string)

  /** One candidate source of the generator's answer. */
  datatype SourceSet = SourceSet(sizes: Value, srcSet: Value)

  /** The generator's answer, as far as the plugin reads it. */
  datatype ImageData = ImageData(width: Value, height: Value, sources: seq<SourceSet>)

  /** `gatsby_image_resolver`: merges directives, writes the merged ones back
      into the request arguments (`Object.assign(args, ...)`), resolves the
      address and hands everything to the generator. Returns the generator's
      answer, the updated arguments and the updated node. */
  function GatsbyImageResolver(source: StoredAsset, args: Args, production: bool, known: set<string>,
                               generate: ImageDataArgs -> ImageData): (r: Result<(ImageData, Args, StoredAsset), Error>)
    ensures var merged := DirectivesArgs(source, args, known);
      r.Ok? ==>
        && r.value.1 == args + merged.0
        && r.value.2 == merged.1
        && (forall k :: k in merged.0 ==> r.value.1[k] == merged.0[k])
        && (forall k :: k in args && k !in merged.0 ==> r.value.1[k] == args[k])
    ensures r.Ok? <==> ReplaceUrl(source, args + DirectivesArgs(source, args, known).0, production).Ok? && source.node.internal.mediaType.Str?
    ensures var merged := DirectivesArgs(source, args, known);
      r.Ok? ==>
        && SourceMetadata(merged.1, merged.0).Ok?
        && r.value.0 == generate(ImageDataArgs(r.value.1, SourceMetadata(merged.1, merged.0).value, PluginName,
                                               ReplaceUrl(source, r.value.1, production).value))
  {
    var merged := DirectivesArgs(source, args, known);
    var fullArgs := args + merged.0;
    var source' := merged.1;
    assert ReplaceUrl(source', fullArgs, production) == ReplaceUrl(source, fullArgs, production);
    var url :- ReplaceUrl(source', fullArgs, production);
    var meta :- SourceMetadata(source', merged.0);
    var data := generate(ImageDataArgs(fullArgs, meta, PluginName, url));
    Ok((data, fullArgs, source'))
  }

  /** The stored directives fill the gaps of a request: a known directive the
      request leaves out reaches the generator with its stored value. */
  lemma StoredDirectivesFillRequest(source: StoredAsset, args: Args, production: bool, known: set<string>,
                                    generate: ImageDataArgs -> ImageData, k: string)
    requires GatsbyImageResolver(source, args, production, known, generate).Ok?
    requires source.node.directives.Some?
    requires k in known && k !in args && k in source.node.directives.value && Truthy(source.node.directives.value[k])
    ensures var full := GatsbyImageResolver(source, args, production, known, generate).value.1;
      k in full && full[k] == source.node.directives.value[k]
  {
  }

  /** Merging again with the arguments as `gatsby_image_resolver` left them,
      into the node as it left it, gives the same directives: the write-backs
      of both `Object.assign` calls only repeat values already merged. */
  lemma MergeIsStable(source: StoredAsset, args: Args, known: set<string>)
    ensures var m := DirectivesArgs(source, args, known);
      DirectivesArgs(m.1, args + m.0, known).0 == m.0
  {
  }

  /** The `url` field (the static-file copy it starts is not modelled). */
  function UrlField(source: StoredAsset, args: Args, production: bool, known: set<string>,
                    build: (string, Directives) -> string): (r: Result<(string, StoredAsset), Error>)
    ensures r.Ok? <==> ReplaceUrl(source, WithRequestedFormat(args), production).Ok?
    ensures r.Ok? ==> r.value.0 == build(ReplaceUrl(source, args, production).value,
                                         DirectivesArgs(source, WithRequestedFormat(args), known).0)
    ensures r.Ok? ==> r.value.1 == DirectivesArgs(source, WithRequestedFormat(args), known).1
  {
    assert ReplaceUrl(source, WithRequestedFormat(args), production) == ReplaceUrl(source, args, production) by {
      assert Get(WithRequestedFormat(args), "ie_distribution") == Get(args, "ie_distribution");
    }
    ImageResolver(source, WithRequestedFormat(args), production, known, build)
  }

  /** The `gatsbyImageData` field (the static-file copy it starts is not modelled). */
  function GatsbyImageField(source: StoredAsset, args: Args, production: bool, known: set<string>,
                            generate: ImageDataArgs -> ImageData): (r: Result<(ImageData, StoredAsset), Error>)
    ensures var g := GatsbyImageResolver(source, WithRequestedFormat(args), production, known, generate);
      (r.Ok? <==> g.Ok?) && (r.Ok? ==> r.value == (g.value.0, g.value.2))
  {
    var g :- GatsbyImageResolver(source, WithRequestedFormat(args), production, known, generate);
    Ok((g.0, g.2))
  }

  /** What the `responsive_details` field returns. */
  datatype ResponsiveDetails = ResponsiveDetails(width: Value, height: Value, sizes: Value, srcSet: Value, src: string)

  /** The `responsive_details` field: the generator's dimensions and first
      candidate, with `src` built from the arguments as the generator call
      left them. A generator answer without candidates makes the destructuring
      throw. */
  function ResponsiveDetailsField(source: StoredAsset, args: Args, production: bool, known: set<string>,
                                  generate: ImageDataArgs -> ImageData,
                                  build: (string, Directives) -> string): (r: Result<(ResponsiveDetails, StoredAsset), Error>)
    ensures var g := GatsbyImageResolver(source, WithSingleFormat(args), production, known, generate);
      && (g.Err? ==> r == Err(g.error))
      && (g.Ok? && |g.value.0.sources| == 0 ==> r.Err?)
      && (g.Ok? && |g.value.0.sources| > 0 ==> r.Ok? && r.value.1 == DirectivesArgs(g.value.2, g.value.1, known).1)
      && (r.Ok? ==>
            && r.value.0.width == g.value.0.width
            && r.value.0.height == g.value.0.height
            && r.value.0.sizes == g.value.0.sources[0].sizes
            && r.value.0.srcSet == g.value.0.sources[0].srcSet
            && r.value.0.src == build(ReplaceUrl(g.value.2, g.value.1, production).value,
                                      DirectivesArgs(g.value.2, g.value.1, known).0))
  {
    var g :- GatsbyImageResolver(source, WithSingleFormat(args), production, known, generate);
    var resolved := g.0;
    // The address resolved for the generator resolves again: the write-backs
    // touch only directives.
    assert ReplaceUrl(g.2, g.1, production) == ReplaceUrl(source, g.1, production);
    var final := ImageResolver(g.2, g.1, production, known, build).value;
    if |resolved.sources| == 0 then Err(TypeError("cannot destructure images.sources[0]"))
    else Ok((ResponsiveDetails(resolved.width, resolved.height, resolved.sources[0].sizes, resolved.sources[0].srcSet, final.0), final.1))
  }

  /** `responsive_details` builds its `src` with exactly the directives the
      generator was given, although both the node and the arguments were
      written back in between. */
  lemma ResponsiveDetailsSameDirectives(source: StoredAsset, args: Args, production: bool, known: set<string>,
                                        generate: ImageDataArgs -> ImageData)
    ensures var g := GatsbyImageResolver(source, WithSingleFormat(args), production, known, generate);
      g.Ok? ==> DirectivesArgs(g.value.2, g.value.1, known).0 == DirectivesArgs(source, WithSingleFormat(args), known).0
  {
    MergeIsStable(source, WithSingleFormat(args), known);
  }

  /** `(args.formats || []).includes(format)`: membership for an array, a
      substring test for a string, and a thrown error for any other truthy
      value. */
  function Includes(formats: Value, format: Value): (r: Result<bool, Error>)
    ensures !Truthy(formats) ==> r == Ok(false)
    ensures formats.Arr? ==> r == Ok(format in formats.items)
    ensures formats.Str? && Truthy(formats) ==> r == Ok(IndexOf(formats.s, ToString(format)).Some?)
    ensures r.Err? <==> Truthy(formats) && !formats.Arr? && !formats.Str?
  {
    if !Truthy(formats) then Ok(false)
    else match formats
      case Arr(items) => Ok(format in items)
      case Str(s) => Ok(IndexOf(s, ToString(format)).Some?)
      case _ => Err(TypeError("formats.includes is not a function"))
  }

  /** The arguments the callback hands to the URL builder: the request
      arguments with width and height falling back to the request's, the
      generator's `fit`, and the format only when it was requested. */
  function CandidateArgs(width: Value, height: Value, format: Value, fit: Value, args: Args): (r: Result<Args, Error>)
    ensures r.Ok? <==> Includes(Get(args, "formats"), format).Ok?
    ensures r.Ok? ==> r.value.Keys == args.Keys + {"width", "height", "fit", "format"}
    ensures r.Ok? ==> r.value["width"] == Or(width, Get(args, "width")) && r.value["height"] == Or(height, Get(args, "height"))
    ensures r.Ok? ==> r.value["fit"] == fit
    ensures Includes(Get(args, "formats"), format) == Ok(true) ==> r.Ok? && r.value["format"] == format
    ensures Includes(Get(args, "formats"), format) == Ok(false) ==> r.Ok? && r.value["format"] == Null
    ensures r.Ok? ==> forall k :: k in args && k !in {"width", "height", "fit", "format"} ==> r.value[k] == args[k]
  {
    var w := Or(width, Get(args, "width"));
    var h := Or(height, Get(args, "height"));
    var included :- Includes(Get(args, "formats"), format);
    Ok(args["width" := w]["height" := h]["fit" := fit]["format" := if included then format else Null])
  }

  /** One candidate as the callback reports it. */
  datatype Candidate = Candidate(src: string, width: Value, height: Value, format: Value)

  /** `ie_from_gatsby_image_resolver`: builds one candidate's URL. It reports
      the generator's format unfiltered and missing dimensions as "auto". */
  function GenerateImageSource(url: string, width: Value, height: Value, format: Value, fit: Value, args: Args,
                               build: (string, Args) -> string): (r: Result<Candidate, Error>)
    ensures r.Ok? <==> Includes(Get(args, "formats"), format).Ok?
    ensures r.Ok? ==> r.value.format == format
    ensures r.Ok? ==> r.value.src == build(url, CandidateArgs(width, height, format, fit, args).value)
    ensures r.Ok? && Truthy(width) ==> r.value.width == width
    ensures r.Ok? && !Truthy(width) && Truthy(Get(args, "width")) ==> r.value.width == args["width"]
    ensures r.Ok? && !Truthy(width) && !Truthy(Get(args, "width")) ==> r.value.width == Str("auto")
    ensures r.Ok? && Truthy(height) ==> r.value.height == height
    ensures r.Ok? && !Truthy(height) && Truthy(Get(args, "height")) ==> r.value.height == args["height"]
    ensures r.Ok? && !Truthy(height) && !Truthy(Get(args, "height")) ==> r.value.height == Str("auto")
  {
    var finalArgs :- CandidateArgs(width, height, format, fit, args);
    Ok(Candidate(build(url, finalArgs), Or(finalArgs["width"], Str("auto")), Or(finalArgs["height"], Str("auto")), format))
  }

  /** What the filter decides is what the builder receives as `format`. */
  lemma CandidateFormat(width: Value, height: Value, format: Value, fit: Value, args: Args, included: bool)
    requires Includes(Get(args, "formats"), format) == Ok(included)
    ensures var c := CandidateArgs(width, height, format, fit, args);
      c.Ok? && c.value["format"] == (if included then format else Null)
  {
  }

  /** The callback's format filter under the `url` and `gatsbyImageData`
      set-up: with a truthy requested format `f`, the builder receives a
      candidate's format exactly when it equals `f`, and `null` otherwise. */
  lemma RequestedFormatFilter(args: Args, width: Value, height: Value, format: Value, fit: Value)
    requires Truthy(Get(args, "format"))
    ensures var c := CandidateArgs(width, height, format, fit, WithRequestedFormat(args));
      && c.Ok?
      && (format == args["format"] ==> c.value["format"] == format)
      && (format != args["format"] ==> c.value["format"] == Null)
  {
    var a := WithRequestedFormat(args);
    assert Get(a, "formats") == Arr([args["format"]]);
    assert Includes(Get(a, "formats"), format) == Ok(format == args["format"]);
    CandidateFormat(width, height, format, fit, a, format == args["format"]);
  }

  /** The callback's format filter under the `responsive_details` set-up with
      no format requested: only the empty format reaches the builder. */
  lemma SingleFormatFilter(args: Args, width: Value, height: Value, format: Value, fit: Value)
    requires !Truthy(Get(args, "format"))
    ensures var c := CandidateArgs(width, height, format, fit, WithSingleFormat(args));
      && c.Ok?
      && (format == Str("") ==> c.value["format"] == Str(""))
      && (format != Str("") ==> c.value["format"] == Null)
  {
    var a := WithSingleFormat(args);
    assert Get(a, "formats") == Arr([Str("")]);
    assert Includes(Get(a, "formats"), format) == Ok(format == Str(""));
    CandidateFormat(width, height, format, fit, a, format == Str(""));
  }
}

=== FILE: types.dfy ===
/** The records the plugin works on: the content nodes the host hands it, the
    plugin configuration, the derived ImageEngineAsset node, the host actions
    it issues and the exceptions it throws. */
module Types {
  import opened Wrappers
  import opened Js

  /** A directive set: directive name to value (width, height, crop, format, ...). */
  type Directives = map<string, Value>

  /** The `internal` block every host node carries. */
  datatype Internal = Internal(typeName: string, mediaType: Value, contentDigest: Value)

  /** The `assets` member of a Storyblok entry's parsed `content`:
      absent (`undefined`), present but falsy (such as `null`), or an object
      whose `filename` is read. A truthy non-object reads `filename` as
      `undefined`, so it is `AssetsPresent(Undefined)`. */
  datatype Assets = AssetsAbsent | AssetsFalsy | AssetsPresent(filename: Value)

  /** The `file` member of a Contentful asset. */
  datatype ContentfulFile = ContentfulFile(url: Value, contentType: Value)

  /** A content node handed to the node-creation hook. Besides `id` and
      `internal`, it carries the members each platform reads:
      `relativePath`, `absolutePath` and `name` for a File node, `file` for a
      Contentful asset (`None` when it is `null` or `undefined`), `url` and
      `mimeType` for a Sanity image asset, and the parsed `content` of a
      Storyblok entry. */
  datatype Node = Node(
    id: string,
    internal: Internal,
    relativePath: Value,
    absolutePath: Value,
    name: Value,
    file: Option<ContentfulFile>,
    url: Value,
    mimeType: Value,
    content: Assets)

  /** The four platform modules of the default registry. */
  datatype Platform = Contentful | Sanityio | FileSystem | Storyblok

  /** A checker is either a platform's default or a function the user configured,
      named by a tag; what a user function answers is given by `Custom`. */
  datatype Checker = DefaultChecker(platform: Platform) | CustomChecker(tag: string)

  datatype Transformer = DefaultTransformer(platform: Platform) | CustomTransformer(tag: string)

  /** The options record of one configured source (`IEPluginOption`). An absent
      or falsy `checker`, `transform` or `directives` is `None`. */
  datatype SourceOptions = SourceOptions(
    source: string,
    ieDeliveryAddress: Value,
    replaceUrl: Value,
    checker: Option<Checker>,
    transform: Option<Transformer>,
    directives: Option<Directives>)

  /** One entry of the `sources` list: a bare platform name or an options record. */
  datatype SourceConfig = Named(name: string) | Configured(opts: SourceOptions)

  /** The plugin options (`IEPluginOptions`). */
  datatype PluginOptions = PluginOptions(
    sources: seq<SourceConfig>,
    ieDeliveryAddress: Value,
    directives: Option<Directives>)

  /** The `internal` block of a derived node. */
  datatype AssetInternal = AssetInternal(
    mediaType: Value,
    typeName: string,
    contentDigest: Value,
    description: string)

  /** The derived ImageEngineAsset node, with the members node creation writes. */
  datatype AssetNode = AssetNode(
    id: string,
    parent: string,
    baseUrl: string,
    tokenizedUrl: string,
    distributionUrl: Value,
    directives: Option<Directives>,
    replacementToken: string,
    parentType: string,
    parentPath: Value,
    parentFilename: Value,
    internal: AssetInternal)

  /** A derived node as a field resolver reads it: the members node creation
      wrote, plus `ie_distribution`, `width` and `height`, which the resolvers
      read but node creation never writes. */
  datatype StoredAsset = StoredAsset(
    node: AssetNode,
    ieDistribution: Value,
    width: Value,
    height: Value)

  /** A derived node exactly as node creation stored it: the three members it
      never writes read as `undefined`. */
  function FromCreated(a: AssetNode): StoredAsset {
    StoredAsset(a, Undefined, Undefined, Undefined)
  }

  /** The host actions the plugin issues. */
  datatype Effect =
    | CreateNode(node: AssetNode)
    | CreateParentChildLink(parent: Node, child: AssetNode)

  /** What a transform did: the node it created, if any, and the actions issued. */
  datatype TransformOutcome = TransformOutcome(created: Option<AssetNode>, effects: seq<Effect>)

  /** The exceptions the plugin throws. `TypeError` stands for the runtime's
      own error when a member is read from `undefined` or a method is missing;
      its text is not modelled. */
  datatype Error =
    | MissingChecker(key: string)
    | MissingTransformer(key: string)
    | FileNodeError(reason: string)
    | UnrecognizedNode
    | TypeError(what: string)

  /** The text thrown for each plugin error. */
  function Message(e: Error): string {
    match e
    case MissingChecker(key) => "Unable to find checker function for " + key
    case MissingTransformer(key) => "Unable to find transformer function for " + key
    case FileNodeError(reason) => "error processing file node: " + reason
    case UnrecognizedNode => "unrecognized type of file/asset node"
    case TypeError(what) => what
  }

  /** What running a transform did: the host actions it issued, in order,
      and the error it threw after them, if it threw. Actions already issued
      are never taken back. */
  datatype Run = Run(effects: seq<Effect>, thrown: Option<Error>)

  /** What user-supplied checkers and transforms do, by tag. A checker may
      throw instead of answering; a transform may throw after issuing some
      host actions. */
  datatype Custom = Custom(
    accepts: (string, Node, SourceOptions, PluginOptions) -> Result<bool, Error>,
    run: (string, Node, SourceOptions, PluginOptions) -> Run)
}

=== FILE: wrappers.dfy ===
/** Failure-compatible wrappers used throughout the model: an optional value
    and the outcome of a computation that may throw. */
module Wrappers {

  datatype Option<+T> = None | Some(value: T)

  /** `Ok` is a normal return; `Err` is a thrown exception carrying `error`. */
  datatype Result<+T, +E> = Ok(value: T) | Err(error: E) {
    predicate IsFailure() {
      Err?
    }

    function PropagateFailure<U>(): Result<U, E>
      requires Err?
    {
      Err(error)
    }

    function Extract(): T
      requires Ok?
    {
      value
    }
  }
}
